=== FILE: README.md ===
# Tournament standings and round lifecycle, modelled in Dafny

This project models the two pieces of logic in the tournament web app that
do more than move rows between the browser and the hosted database:

1. **The standings engine** of the standings page (`calculateStandings`).
   It files every team into a bucket named after its group. It folds every
   finished match into both teams' standings. It sorts each group by wins,
   then points difference, then points per game (ppg). Finally it picks the
   semifinal qualifiers: each group's winner plus the runner-up with the
   best ppg.
2. **The round lifecycle** of the admin page. Start, Finish and Restart
   each update one round and then bulk-update that round's matches. The
   page offers exactly one of these buttons per round, chosen by the round's
   status.

Both are modelled as pure functions over an in-memory snapshot of the rows
that the pages fetch. The current time is an opaque `now` parameter.

## Layout

| file | module | contents |
|---|---|---|
| `wrappers.dfy` | `Wrappers` | `Option` and `Result` |
| `records.dfy` | `Records` | the rows (`Group`, `Team`, `Round`, `Match`), the derived `Standing`, and `Coherent` |
| `ranking.dfy` | `Ranking` | the two comparators and a stable insertion sort, with its permutation, ordering, stability and uniqueness proofs |
| `standings.dfy` | `Standings` | bucket initialisation, team lookup, crediting one side of a match, the match fold |
| `invariants.dfy` | `Invariants` | column totals and derived-column coherence across the fold |
| `qualifiers.dfy` | `Qualifiers` | winners, runners-up, best runner-up, the qualifier list |
| `engine.dfy` | `Engine` | `Compute`, the whole computation, and the theorems about what it returns |
| `lifecycle.dfy` | `Lifecycle` | Start / Finish / Restart and the button relation |

## Modelling decisions

- **Buckets.** `standingsMap` is a sequence of `Bucket(name, entries)` in key
  insertion order. A repeated group name reassigns an existing key, so
  repeated names share the bucket at their first position.
- **Unknown groups.** A team whose `group_id` matches no group is filed
  under `''`. When no group has that name, indexing the missing bucket
  throws, and the page publishes nothing. This is modelled as
  `Failure(MissingBucket(..))`, not as a precondition.
- **Team lookup.** Matches look up teams by id with a `find` over the
  flattened buckets. The model keeps that first-found position (`Locate`).
  So a team id filed twice is credited at its first position only. A match
  of a team against itself credits that one standing with both sides.
- **Ties.** The code comment says "assume no ties", but the branches give a
  tie neither a win nor a loss. The model follows the branches.
- **Counted matches.** Every match whose status is `finished` is counted,
  whatever its round's type. The code has no round-type filter.
- **ppg.** ppg is an exact `real`. The comparator `b.wins - a.wins ||
  b.diff - a.diff || b.ppg - a.ppg` is modelled as written. `Compare`
  proves it is a lexicographic comparison.
- **Sorting.** `Array.prototype.sort` is required to be stable, and
  `Ranking.SortUnique` proves that a permutation which is ranked and stable
  is unique. So the insertion sort here returns exactly what any conforming
  engine returns.
- **Truthiness.** `.filter(Boolean)` on ids is modelled as "present and not
  `''`".
- **Restart zeroes the scores.** The admin page's restart sets every match
  of the round to `pending` with `score1 = score2 = 0`. The model follows
  the code.
- **Status columns.** The status columns are an enumeration
  `Pending | Active | Finished`.
- **Qualifier count.** Here a "group" is a bucket, one per distinct group
  name. The exact count is "one per non-empty bucket, plus one when some
  bucket has two teams" (`Qualifiers.QualifyShape`). It is
  `#buckets + 1` exactly when every bucket has a team and some bucket has
  two (`Qualifiers.QualifyLength`). "Every bucket has two or more teams" is
  sufficient for that, but not necessary. The number of buckets equals the
  number of groups only when group names are distinct
  (`Engine.ComputeGroups`); with groups `X, X` and two teams in `X` there
  are two qualifiers, not three.

## Model

| member | source | states |
|---|---|---|
| `Ranking.Compare` | src/app/standings/page.tsx:87 | the comparator is positive exactly when `b` ranks strictly above `a` on (wins, diff, ppg) compared lexicographically, negative exactly when `a` ranks above `b`, and zero exactly when the keys are equal |
| `Ranking.SortPermutes` | src/app/standings/page.tsx:87 | sorting a group only reorders its standings (same multiset) |
| `Ranking.SortRanked` | src/app/standings/page.tsx:87 | the sorted group never puts a standing before one that ranks strictly higher on wins, then diff, then ppg |
| `Ranking.SortStable` | src/app/standings/page.tsx:87 | standings that are equal on all three keys keep their input order |
| `Ranking.SortUnique` | src/app/standings/page.tsx:87 | any permutation that is ranked and stable equals the model's sort, so the model agrees with every stable sort |
| `Standings.EmptyBuckets` | src/app/standings/page.tsx:36-38 | one empty bucket per distinct group name and no other bucket; names never repeat |
| `Standings.EmptyBucketsOrder` | src/app/standings/page.tsx:36-38 | buckets come in the order in which their names first occur in the group list |
| `Standings.FindGroup` | src/app/standings/page.tsx:41 | returns the first group in list order with the team's group id, or none when no group has that id |
| `Standings.Seat` | src/app/standings/page.tsx:41-55 | filing one team fails exactly when its bucket name is not among the table's bucket names; otherwise no bucket is added, removed or renamed |
| `Standings.Seed` | src/app/standings/page.tsx:40-56 | when initialisation succeeds, the buckets are exactly the ones created from the groups, in the same order |
| `Standings.SeatNamed` | src/app/standings/page.tsx:42-45 | filing a team gives a new standing that team's name and never renames a standing already filed under the same id |
| `Standings.FiledIdsMembers` | src/app/standings/page.tsx:40-56 | an id is filed under a bucket name exactly when some team with that id has that bucket name |
| `Standings.SeedSpec` | src/app/standings/page.tsx:36-56 | initialisation fails exactly when some team's bucket name is not a group name; otherwise each bucket holds one zeroed standing per distinct id of the teams filed under its name, in the order those ids first appear in the team list, and named after the first team with that id filed there |
| `Standings.Locate` | src/app/standings/page.tsx:59-60 | finds the first position in flattened bucket order that holds the id, and finds nothing only when no bucket holds it |
| `Standings.Credit` | src/app/standings/page.tsx:63-81 | one more game played; wins plus losses grow by one exactly when the scores differ; identity is kept; diff and ppg stay consistent with the counters |
| `Standings.ApplyMatch` | src/app/standings/page.tsx:58-83 | team ids and bucket names never change, and a match that is not finished or whose teams are not both found leaves the table unchanged |
| `Standings.Tally` | src/app/standings/page.tsx:58-83 | the fold never adds, removes or moves a standing: every bucket keeps its name and its team ids in order |
| `Invariants.TallyLabels` | src/app/standings/page.tsx:58-83 | the fold never renames or regroups a standing: every position keeps its `name` and `group` |
| `Invariants.ApplyMatchEffect` | src/app/standings/page.tsx:62-81 | a counted match changes only the two standings found; each gets a game, its points for and against, and a win for the higher scorer with a loss for the lower; both keep their team id, name and group; a team against itself is credited with both sides |
| `Invariants.ApplyMatchTotal` | src/app/standings/page.tsx:63-76 | a counted match adds 2 to total played, 1 to total wins and total losses when decisive and 0 when tied, and its combined score to both points totals; an uncounted match adds nothing |
| `Invariants.TallyTotals` | src/app/standings/page.tsx:58-83 | across the whole fold, played grows by twice the counted matches, wins and losses each by the decisive counted matches, and points for and against by the same amount |
| `Invariants.TallyCoherent` | src/app/standings/page.tsx:78-81 | after the fold every standing has diff = pointsFor - pointsAgainst, ppg = pointsFor / played (0 when unplayed), and wins + losses <= played |
| `Qualifiers.Tops` | src/app/standings/page.tsx:93 | at most one winner id per group, and none of them empty |
| `Qualifiers.Seconds` | src/app/standings/page.tsx:94 | at most one runner-up per group |
| `Qualifiers.SecondsSpec` | src/app/standings/page.tsx:94 | there are runners-up exactly when some group has two teams; each runner-up is the second standing of such a group, and the second standing of every such group is a runner-up |
| `Qualifiers.BestSecond` | src/app/standings/page.tsx:95 | a pick exists exactly when some runner-up does, and it is one of the runners-up |
| `Qualifiers.BestSecondSpec` | src/app/standings/page.tsx:95 | a best runner-up exists exactly when some runner-up does; it has the highest ppg of all runners-up, and every runner-up before it has strictly lower ppg |
| `Qualifiers.BestRunnerUp` | src/app/standings/page.tsx:94-95 | the pick is the second standing of some group `b`; its ppg is at least that of every group's second standing, and strictly more than that of the second standing of every group before `b` |
| `Qualifiers.BestRunnerUpUnique` | src/app/standings/page.tsx:94-95 | that description fits only one standing, so it pins the pick down completely |
| `Qualifiers.Qualify` | src/app/standings/page.tsx:96 | at most one qualifier per group plus one, and no qualifier id is empty |
| `Qualifiers.QualifyShape` | src/app/standings/page.tsx:93-96 | the qualifiers are the first team of every non-empty group in group order, then, when some group has two teams, that group-level best runner-up; the count is the number of non-empty groups plus one exactly when some group has two teams |
| `Qualifiers.QualifyLength` | src/app/standings/page.tsx:93-96 | at most one qualifier per group plus one; exactly that many iff every group has a team and some group has two |
| `Engine.RankTable` | src/app/standings/page.tsx:85-88 | ranking keeps one list per bucket, with the same names in the same order |
| `Engine.Compute` | src/app/standings/page.tsx:34-96 | on success the published groups are exactly the initialised buckets, in order, and there is at most one qualifier per group plus one |
| `Engine.ComputeFails` | src/app/standings/page.tsx:36-42 | the computation aborts exactly when some team's bucket name is not the name of any group |
| `Engine.ComputeGroups` | src/app/standings/page.tsx:34-88 | every group appears in the result, and the groups are ordered by where each name first occurs in the group list (exactly the group order when names are distinct); each group's list is ranked and holds each team id filed under it exactly once |
| `Engine.ComputeNames` | src/app/standings/page.tsx:40-88 | every published standing carries the name of the first team filed under its id in its group, and the name of the group it is listed under |
| `Engine.ComputeStable` | src/app/standings/page.tsx:85-88 | within each published group, standings that are equal on wins, diff and ppg appear in the order the fold left them, which is the order their teams first appear in the team list |
| `Engine.ComputeTotals` | src/app/standings/page.tsx:58-88 | in the published table, total played is twice the counted matches, total wins and total losses both equal the decisive counted matches, and total points for equals total points against |
| `Engine.ComputeCoherent` | src/app/standings/page.tsx:47-81 | every published standing, including one with no games, has diff, ppg and its win/loss count consistent with its counters |
| `Engine.ComputeQualifiers` | src/app/standings/page.tsx:93-96 | the published qualifiers are the first team of every non-empty group in group order, followed, exactly when some group has two teams, by the published table's best runner-up (the first group's second standing with the highest ppg among all groups' seconds); their count is the number of non-empty groups plus that one, never more than the number of groups plus one |
| `Lifecycle.Apply` | src/app/admin/page.tsx:103-117 | each transition changes only the round with that id and its matches, and leaves all of them with the transition's target status |
| `Lifecycle.StartRound` | src/app/admin/page.tsx:103-105 | the round becomes active with start time `now` and keeps its end time; all its matches become active; scores are kept; nothing outside the round changes |
| `Lifecycle.FinishRound` | src/app/admin/page.tsx:109-111 | the round becomes finished with end time `now` and keeps its start time; all its matches become finished; scores are kept; nothing outside the round changes |
| `Lifecycle.ResetRound` | src/app/admin/page.tsx:115-117 | the round becomes pending with both times cleared; all its matches become pending at 0-0; nothing outside the round changes |
| `Lifecycle.ResetIdempotent` | src/app/admin/page.tsx:115-117 | restarting twice yields the same snapshot as restarting once |
| `Lifecycle.ResetPristine` | src/app/admin/page.tsx:115-117 | restarting a round that was never started changes nothing |
| `Lifecycle.LifecycleRoundTrip` | src/app/admin/page.tsx:103-117 | a newly created round that is started, finished and restarted returns exactly to the snapshot it began in, whatever the clock read |
| `Lifecycle.Commute` | src/app/admin/page.tsx:104-117 | transitions of two different rounds touch disjoint rows, so they commute |
| `Lifecycle.Offer` | src/app/admin/page.tsx:177-179 | the button offered for each status moves it one step along pending, active, finished, pending |
| `Lifecycle.Click` | src/app/admin/page.tsx:177-179 | pressing a round's button moves its status one step along the cycle and changes nothing outside that round and its matches |
| `Lifecycle.ClickCycles` | src/app/admin/page.tsx:177-179 | the button offered for a round moves it one step along pending, active, finished, pending; it leaves the round and its matches with one common status and changes nothing else |
| `Lifecycle.ClickThrice` | src/app/admin/page.tsx:177-179 | the offered transitions form a cycle of length three: two clicks change the status, and the third restores it |

## Left out

- Fetching, inserting and subscribing through the database client is left out: `fetchData`, the `add*` inserts, the `postgres_changes` channel and its teardown. These are single-row I/O with no logic. The model takes the fetched rows as inputs.
- Non-atomic transitions are left out. Each transition is two separate awaited updates, but it is modelled as one atomic step. Interleavings and a failure between the two updates are not modelled.
- Rendering is left out: `toFixed(2)`, the qualifier-name lookup in the JSX, and the `parseInt` and min/max number inputs.
- Floating-point arithmetic is left out. ppg is an exact rational, so rounding in the division and in `b.ppg - a.ppg` is not modelled.
- JavaScript object-key order is modelled as insertion order. Integer-like group names or team ids, which JavaScript enumerates first, are not modelled. Neither are group names that collide with `Object.prototype` properties.
- Statuses other than `pending`, `active` and `finished` are not modelled, because the status columns are an enumeration here.
- The courtside score page is not part of this model. Neither are semifinal and final generation, pause and resume timing, and the round-start broadcast. None of these appear in the two modelled files.
- Qualifiers.QualifyShape: states the qualifier list exactly only when every team id is non-empty. `.filter(Boolean)` would also drop a team whose id is `''`. Store-generated ids are never empty.
- Engine.ComputeQualifiers: requires non-empty team ids, for the same reason as `Qualifiers.QualifyShape`.
- Qualifiers.QualifyLength: the exact-count half assumes non-empty team ids, as `Qualifiers.QualifyShape` does. The upper bound holds for all inputs.

=== FILE: engine.dfy ===
/**
 * `calculateStandings` of the standings page as one pure function of the
 * fetched rows: initialise, fold the matches, rank every group, pick the
 * qualifiers. The theorems here state what the page publishes.
 */
module Engine {
  import opened Wrappers
  import opened Records
  import opened Standings
  import opened Invariants
  import opened Qualifiers
  import Ranking

  /** What the page stores with `setStandings` and `setQualifiers`. */
  datatype Outcome = Outcome(standings: Table, qualifiers: seq<Id>)

  /** Every group's standings sorted by wins, then diff, then ppg, all descending. */
  function RankTable(t: Table): (r: Table)
    ensures |r| == |t| && Names(r) == Names(t)
  {
    seq(|t|, b requires 0 <= b < |t| =>
      Bucket(t[b].name, Ranking.Sort(Ranking.ByRecord, t[b].entries)))
  }

  /**
   * The whole computation. `matches` is every row of the matches table; the
   * status filter the page puts on its query is applied by `ApplyMatch`.
   */
  function Compute(groups: seq<Group>, teams: seq<Team>, matches: seq<Match>): (r: Result<Outcome, Fault>)
    ensures r.Success? ==> Names(r.value.standings) == Names(EmptyBuckets(groups))
    ensures r.Success? ==> |r.value.qualifiers| <= |r.value.standings| + 1
  {
    var seeded :- Seed(groups, teams);
    var ranked := RankTable(Tally(seeded, matches));
    Success(Outcome(ranked, Qualify(ranked)))
  }

  // ---------------------------------------------------------------------
  // Sorting keeps sums and ids
  // ---------------------------------------------------------------------

  lemma {:induction false} InsertSum(o: Ranking.Order, x: Standing, s: seq<Standing>, f: Field)
    ensures SumOf(Ranking.Insert(o, x, s), f) == Get(x, f) + SumOf(s, f)
  {
    if s != [] && Ranking.Compare(o, x, s[0]) > 0.0 {
      InsertSum(o, x, s[1..], f);
    }
  }

  lemma IdsOfCons(x: Standing, s: seq<Standing>)
    ensures multiset(IdsOf([x] + s)) == multiset{x.teamId} + multiset(IdsOf(s))
  {
    assert IdsOf([x] + s) == [x.teamId] + IdsOf(s);
  }

  lemma {:induction false} InsertIds(o: Ranking.Order, x: Standing, s: seq<Standing>)
    ensures multiset(IdsOf(Ranking.Insert(o, x, s))) == multiset(IdsOf(s)) + multiset{x.teamId}
  {
    if s == [] {
      IdsOfCons(x, []);
    } else if Ranking.Compare(o, x, s[0]) > 0.0 {
      var t := Ranking.Insert(o, x, s[1..]);
      assert Ranking.Insert(o, x, s) == [s[0]] + t;
      InsertIds(o, x, s[1..]);
      IdsOfCons(s[0], t);
      assert s == [s[0]] + s[1..];
      IdsOfCons(s[0], s[1..]);
    } else {
      IdsOfCons(x, s);
    }
  }

  /** Sorting a group neither changes its column sums nor which team ids it holds. */
  lemma {:induction false} SortKeeps(o: Ranking.Order, s: seq<Standing>, f: Field)
    ensures SumOf(Ranking.Sort(o, s), f) == SumOf(s, f)
    ensures multiset(IdsOf(Ranking.Sort(o, s))) == multiset(IdsOf(s))
  {
    if s != [] {
      SortKeeps(o, s[1..], f);
      InsertSum(o, s[0], Ranking.Sort(o, s[1..]), f);
      InsertIds(o, s[0], Ranking.Sort(o, s[1..]));
      assert IdsOf(s) == [s[0].teamId] + IdsOf(s[1..]);
    }
  }

  lemma {:induction false} RankTableTotal(t: Table, f: Field)
    ensures Total(RankTable(t), f) == Total(t, f)
  {
    if t != [] {
      RankTableTotal(t[1..], f);
      SortKeeps(Ranking.ByRecord, t[0].entries, f);
      assert RankTable(t)[1..] == RankTable(t[1..]);
    }
  }

  lemma {:induction false} ZeroTotal(t: Table, f: Field)
    requires forall b, i :: 0 <= b < |t| && 0 <= i < |t[b].entries| ==> Zeroed(t[b].entries[i])
    ensures Total(t, f) == 0
  {
    if t != [] {
      ZeroSum(t[0].entries, f);
      assert forall b, i :: 0 <= b < |t[1..]| && 0 <= i < |t[1..][b].entries| ==>
        t[1..][b].entries[i] == t[b + 1].entries[i];
      ZeroTotal(t[1..], f);
    }
  }

  lemma {:induction false} ZeroSum(s: seq<Standing>, f: Field)
    requires forall i :: 0 <= i < |s| ==> Zeroed(s[i])
    ensures SumOf(s, f) == 0
  {
    if s != [] {
      ZeroSum(s[1..], f);
    }
  }

  // ---------------------------------------------------------------------
  // What the page publishes
  // ---------------------------------------------------------------------

  /** The page aborts exactly when some team is filed under a name no group has. */
  lemma ComputeFails(groups: seq<Group>, teams: seq<Team>, matches: seq<Match>)
    ensures Compute(groups, teams, matches).Failure? <==>
            exists team :: team in teams && BucketName(groups, team) !in GroupNames(groups)
  {
    SeedSpec(groups, teams);
  }

  /**
   * Every group appears, empty or not, in first-occurrence order of its
   * name; each group's list holds each team filed under it exactly once,
   * ranked by wins, diff and ppg, with equal-ranked teams in input order.
   */
  lemma ComputeGroups(groups: seq<Group>, teams: seq<Team>, matches: seq<Match>)
    requires Compute(groups, teams, matches).Success?
    ensures var r := Compute(groups, teams, matches).value.standings;
      && Names(r) == Names(EmptyBuckets(groups))
      && FirstOccurrenceOrder(groups, r)
      && (Distinct(GroupNames(groups)) ==> Names(r) == GroupNames(groups))
      && forall b :: 0 <= b < |r| ==>
           && Ranking.Ranked(Ranking.ByRecord, r[b].entries)
           && (forall id :: multiset(IdsOf(r[b].entries))[id]
                 == if exists team :: team in teams && team.id == id && BucketName(groups, team) == r[b].name
                    then 1 else 0)
  {
    SeedSpec(groups, teams);
    var seeded := Seed(groups, teams).value;
    var tallied := Tally(seeded, matches);
    var r := RankTable(tallied);
    DistinctNames(groups);
    EmptyBucketsOrder(groups);
    SameNamesOrder(groups, EmptyBuckets(groups), r);
    forall b | 0 <= b < |r|
      ensures Ranking.Ranked(Ranking.ByRecord, r[b].entries)
      ensures forall id :: multiset(IdsOf(r[b].entries))[id]
                 == if exists team :: team in teams && team.id == id && BucketName(groups, team) == r[b].name
                    then 1 else 0
    {
      assert Ids(tallied)[b] == Ids(seeded)[b];
      assert Names(r)[b] == Names(seeded)[b];
      SortedBucket(groups, teams, tallied[b].entries, r[b].name);
    }
  }

  /** Ranking a bucket of filed ids orders it and keeps one entry per filed team. */
  lemma SortedBucket(groups: seq<Group>, teams: seq<Team>, entries: seq<Standing>, name: string)
    requires IdsOf(entries) == FiledIds(groups, teams, name)
    ensures var sorted := Ranking.Sort(Ranking.ByRecord, entries);
      && Ranking.Ranked(Ranking.ByRecord, sorted)
      && forall id :: multiset(IdsOf(sorted))[id]
           == if exists team :: team in teams && team.id == id && BucketName(groups, team) == name then 1 else 0
  {
    Ranking.SortRanked(Ranking.ByRecord, entries);
    SortKeeps(Ranking.ByRecord, entries, Played);
    forall id
      ensures multiset(IdsOf(Ranking.Sort(Ranking.ByRecord, entries)))[id]
           == if exists team :: team in teams && team.id == id && BucketName(groups, team) == name then 1 else 0
    {
      FiledMultiplicity(groups, teams, name, id);
    }
  }

  /**
   * Equal-ranked standings of each group are published in the order the
   * fold left them, which is the order their teams first appear in `teams`.
   */
  lemma ComputeStable(groups: seq<Group>, teams: seq<Team>, matches: seq<Match>, b: nat, k: Ranking.Key)
    requires Compute(groups, teams, matches).Success?
    requires b < |Compute(groups, teams, matches).value.standings|
    ensures var r := Compute(groups, teams, matches).value.standings;
      var tallied := Tally(Seed(groups, teams).value, matches);
      && Ranking.WithKey(Ranking.ByRecord, r[b].entries, k) == Ranking.WithKey(Ranking.ByRecord, tallied[b].entries, k)
      && IdsOf(tallied[b].entries) == FiledIds(groups, teams, r[b].name)
  {
    SeedSpec(groups, teams);
    var seeded := Seed(groups, teams).value;
    var tallied := Tally(seeded, matches);
    var r := RankTable(tallied);
    Ranking.SortStable(Ranking.ByRecord, tallied[b].entries, k);
    assert Ids(tallied)[b] == Ids(seeded)[b];
    assert Names(r)[b] == Names(seeded)[b];
  }

  /**
   * Column totals of the published table: two games played per counted
   * match, one win and one loss per decisive counted match, and equal
   * points for and against.
   */
  lemma ComputeTotals(groups: seq<Group>, teams: seq<Team>, matches: seq<Match>)
    requires Compute(groups, teams, matches).Success?
    ensures var r := Compute(groups, teams, matches).value.standings;
      var counted := Counted(Seed(groups, teams).value, matches);
      && Total(r, Played) == 2 * |counted|
      && Total(r, Wins) == Total(r, Losses) == Decisive(counted)
      && Total(r, PointsFor) == Total(r, PointsAgainst) == Scored(counted)
  {
    SeedSpec(groups, teams);
    var seeded := Seed(groups, teams).value;
    var tallied := Tally(seeded, matches);
    TallyTotals(seeded, matches);
    ZeroTotal(seeded, Played);
    ZeroTotal(seeded, Wins);
    ZeroTotal(seeded, Losses);
    ZeroTotal(seeded, PointsFor);
    ZeroTotal(seeded, PointsAgainst);
    RankTableTotal(tallied, Played);
    RankTableTotal(tallied, Wins);
    RankTableTotal(tallied, Losses);
    RankTableTotal(tallied, PointsFor);
    RankTableTotal(tallied, PointsAgainst);
  }

  /** Every published standing has diff, ppg and its win/loss count in step with its counters. */
  lemma ComputeCoherent(groups: seq<Group>, teams: seq<Team>, matches: seq<Match>)
    requires Compute(groups, teams, matches).Success?
    ensures AllCoherent(Compute(groups, teams, matches).value.standings)
  {
    SeedSpec(groups, teams);
    var seeded := Seed(groups, teams).value;
    var tallied := Tally(seeded, matches);
    var r := RankTable(tallied);
    assert AllCoherent(seeded);
    TallyCoherent(seeded, matches);
    forall b, i | 0 <= b < |r| && 0 <= i < |r[b].entries|
      ensures Coherent(r[b].entries[i])
    {
      Ranking.SortPermutes(Ranking.ByRecord, tallied[b].entries);
      assert r[b].entries[i] in multiset(tallied[b].entries);
    }
  }

  /**
   * Every published standing carries the name of the first team filed
   * under its id in its group, and the name of the group it is listed in.
   */
  lemma ComputeNames(groups: seq<Group>, teams: seq<Team>, matches: seq<Match>)
    requires Compute(groups, teams, matches).Success?
    ensures var r := Compute(groups, teams, matches).value.standings;
      && NamedAsFiled(groups, teams, r)
      && forall b, i :: 0 <= b < |r| && 0 <= i < |r[b].entries| ==> r[b].entries[i].group == r[b].name
  {
    SeedSpec(groups, teams);
    var seeded := Seed(groups, teams).value;
    var tallied := Tally(seeded, matches);
    var r := RankTable(tallied);
    TallyLabels(seeded, matches);
    forall b, i | 0 <= b < |r| && 0 <= i < |r[b].entries|
      ensures r[b].entries[i].name == FiledName(groups, teams, r[b].name, r[b].entries[i].teamId)
      ensures r[b].entries[i].group == r[b].name
    {
      assert Ids(tallied)[b] == Ids(seeded)[b];
      assert Names(r)[b] == Names(seeded)[b];
      Ranking.SortPermutes(Ranking.ByRecord, tallied[b].entries);
      assert r[b].entries[i] in multiset(tallied[b].entries);
      var j :| 0 <= j < |tallied[b].entries| && tallied[b].entries[j] == r[b].entries[i];
      assert IdsOf(tallied[b].entries)[j] == IdsOf(seeded[b].entries)[j];
    }
  }

  /**
   * The published qualifiers: the winner of every non-empty group in group
   * order, then the best runner-up of the published table when some group
   * has a second team.
   */
  lemma ComputeQualifiers(groups: seq<Group>, teams: seq<Team>, matches: seq<Match>)
    requires Compute(groups, teams, matches).Success?
    requires forall team :: team in teams ==> team.id != ""
    ensures var o := Compute(groups, teams, matches).value;
      && (HasRunnerUp(o.standings) ==>
            exists best :: IsBestRunnerUp(o.standings, best) && o.qualifiers == Leaders(o.standings) + [best.teamId])
      && (!HasRunnerUp(o.standings) ==> o.qualifiers == Leaders(o.standings))
      && |o.qualifiers| == NonEmpty(o.standings) + (if HasRunnerUp(o.standings) then 1 else 0)
      && |o.qualifiers| <= |o.standings| + 1
  {
    var o := Compute(groups, teams, matches).value;
    ComputeIdsTruthy(groups, teams, matches);
    QualifyShape(o.standings);
    QualifyLength(o.standings);
    if HasRunnerUp(o.standings) {
      var best := BestSecond(Seconds(o.standings)).value;
      assert IsBestRunnerUp(o.standings, best);
    }
  }

  /** Published standings carry only ids of teams, so none is empty when no team id is. */
  lemma ComputeIdsTruthy(groups: seq<Group>, teams: seq<Team>, matches: seq<Match>)
    requires Compute(groups, teams, matches).Success?
    requires forall team :: team in teams ==> team.id != ""
    ensures IdsTruthy(Compute(groups, teams, matches).value.standings)
  {
    var r := Compute(groups, teams, matches).value.standings;
    ComputeGroups(groups, teams, matches);
    forall b, i | 0 <= b < |r| && 0 <= i < |r[b].entries|
      ensures r[b].entries[i].teamId != ""
    {
      var id := r[b].entries[i].teamId;
      assert IdsOf(r[b].entries)[i] == id;
      assert multiset(IdsOf(r[b].entries))[id] > 0;
    }
  }

  // ---------------------------------------------------------------------
  // Helpers
  // ---------------------------------------------------------------------

  /** With distinct group names every group gets its own bucket, in group order. */
  lemma {:induction false} DistinctNames(groups: seq<Group>)
    ensures Distinct(GroupNames(groups)) ==> Names(EmptyBuckets(groups)) == GroupNames(groups)
  {
    if groups != [] && Distinct(GroupNames(groups)) {
      var init := groups[..|groups| - 1];
      assert GroupNames(groups) == GroupNames(init) + [groups[|groups| - 1].name];
      assert Distinct(GroupNames(init));
      DistinctNames(init);
    }
  }

  /** Order by first occurrence depends only on the bucket names. */
  lemma SameNamesOrder(groups: seq<Group>, t: Table, u: Table)
    requires Names(t) == Names(u)
    requires FirstOccurrenceOrder(groups, t)
    ensures FirstOccurrenceOrder(groups, u)
  {
    forall b | 0 <= b < |u|
      ensures u[b].name == t[b].name
    {
      assert Names(u)[b] == Names(t)[b];
    }
  }

  /** Each team filed under a bucket name is counted once among its filed ids. */
  lemma FiledMultiplicity(groups: seq<Group>, teams: seq<Team>, name: string, id: Id)
    ensures multiset(FiledIds(groups, teams, name))[id]
         == if exists team :: team in teams && team.id == id && BucketName(groups, team) == name then 1 else 0
  {
    FiledIdsMembers(groups, teams, name, id);
    DistinctMultiplicity(FiledIds(groups, teams, name));
  }

  lemma {:induction false} DistinctMultiplicity(s: seq<Id>)
    requires Distinct(s)
    ensures forall x :: multiset(s)[x] == if x in s then 1 else 0
  {
    if s != [] {
      assert s == [s[0]] + s[1..];
      DistinctMultiplicity(s[1..]);
    }
  }
}

=== FILE: invariants.dfy ===
/**
 * What the match fold of the standings page keeps true: every standing's
 * derived columns agree with its counters, and the table's column totals
 * grow by exactly what the counted matches contribute.
 */
module Invariants {
  import opened Records
  import opened Standings

  /** The counter columns of a standing that the page sums implicitly. */
  datatype Field = Played | Wins | Losses | PointsFor | PointsAgainst

  function Get(s: Standing, f: Field): int {
    match f
    case Played => s.played
    case Wins => s.wins
    case Losses => s.losses
    case PointsFor => s.pointsFor
    case PointsAgainst => s.pointsAgainst
  }

  function SumOf(s: seq<Standing>, f: Field): int {
    if s == [] then 0 else Get(s[0], f) + SumOf(s[1..], f)
  }

  /** A column summed over every standing of every bucket. */
  function Total(t: Table, f: Field): int {
    if t == [] then 0 else SumOf(t[0].entries, f) + Total(t[1..], f)
  }

  /** What one counted match adds to a column's total over the table. */
  function Gain(m: Match, f: Field): int {
    match f
    case Played => 2
    case Wins => if m.score1 != m.score2 then 1 else 0
    case Losses => if m.score1 != m.score2 then 1 else 0
    case PointsFor => m.score1 + m.score2
    case PointsAgainst => m.score1 + m.score2
  }

  function GainOf(ms: seq<Match>, f: Field): int {
    if ms == [] then 0 else Gain(ms[0], f) + GainOf(ms[1..], f)
  }

  /** The matches of `ms` the fold counts against a table with these ids. */
  function Counted(t: Table, ms: seq<Match>): (r: seq<Match>)
    ensures forall m :: m in r <==> m in ms && Counts(t, m)
  {
    if ms == [] then []
    else if Counts(t, ms[0]) then [ms[0]] + Counted(t, ms[1..])
    else Counted(t, ms[1..])
  }

  /** The matches with a winner. */
  function Decisive(ms: seq<Match>): nat {
    if ms == [] then 0
    else (if ms[0].score1 != ms[0].score2 then 1 else 0) + Decisive(ms[1..])
  }

  /** Both teams' points of every match together. */
  function Scored(ms: seq<Match>): int {
    if ms == [] then 0 else ms[0].score1 + ms[0].score2 + Scored(ms[1..])
  }

  ghost predicate AllCoherent(t: Table) {
    forall b, i :: 0 <= b < |t| && 0 <= i < |t[b].entries| ==> Coherent(t[b].entries[i])
  }

  // ---------------------------------------------------------------------
  // Sums under a single update
  // ---------------------------------------------------------------------

  lemma {:induction false} SumOfUpdate(s: seq<Standing>, i: nat, x: Standing, f: Field)
    requires i < |s|
    ensures SumOf(s[i := x], f) == SumOf(s, f) - Get(s[i], f) + Get(x, f)
  {
    if i > 0 {
      SumOfUpdate(s[1..], i - 1, x, f);
      assert s[i := x][1..] == s[1..][i - 1 := x];
    }
  }

  lemma {:induction false} TotalReplace(t: Table, b: nat, bucket: Bucket, f: Field)
    requires b < |t|
    ensures Total(t[b := bucket], f) == Total(t, f) - SumOf(t[b].entries, f) + SumOf(bucket.entries, f)
  {
    if b > 0 {
      TotalReplace(t[1..], b - 1, bucket, f);
      assert t[b := bucket][1..] == t[1..][b - 1 := bucket];
    }
  }

  lemma TotalUpdate(t: Table, l: Loc, x: Standing, f: Field)
    requires ValidLoc(t, l) && x.teamId == At(t, l).teamId
    ensures Total(Update(t, l, x), f) == Total(t, f) - Get(At(t, l), f) + Get(x, f)
  {
    var entries := t[l.b].entries;
    TotalReplace(t, l.b, Bucket(t[l.b].name, entries[l.i := x]), f);
    SumOfUpdate(entries, l.i, x, f);
  }

  // ---------------------------------------------------------------------
  // One match, then the whole fold
  // ---------------------------------------------------------------------

  /** A counted match adds exactly its gain to every column total; any other match adds nothing. */
  lemma ApplyMatchTotal(t: Table, m: Match, f: Field)
    ensures Total(ApplyMatch(t, m), f) == Total(t, f) + (if Counts(t, m) then Gain(m, f) else 0)
  {
    if Counts(t, m) {
      var l1 := Locate(Ids(t), m.team1Id).value;
      var l2 := Locate(Ids(t), m.team2Id).value;
      var c1 := Credit(At(t, l1), m.score1, m.score2);
      var t1 := Update(t, l1, c1);
      var c2 := Credit(At(t1, l2), m.score2, m.score1);
      TotalUpdate(t, l1, c1, f);
      TotalUpdate(t1, l2, c2, f);
    }
  }

  /**
   * A counted match credits the first standing found for each team and no
   * other: a game played each, each side's points for and against, and a
   * win for the higher scorer with a loss for the other unless they tie.
   * A team recorded against itself has one standing credited with both sides.
   */
  lemma ApplyMatchEffect(t: Table, m: Match)
    requires Counts(t, m)
    ensures var l1 := Locate(Ids(t), m.team1Id).value;
      var l2 := Locate(Ids(t), m.team2Id).value;
      var r := ApplyMatch(t, m);
      && ValidLoc(t, l1) && ValidLoc(t, l2) && ValidLoc(r, l1) && ValidLoc(r, l2)
      && (forall l :: ValidLoc(t, l) && l != l1 && l != l2 ==> ValidLoc(r, l) && At(r, l) == At(t, l))
      && (l1 != l2 ==>
            && SideCredited(At(t, l1), At(r, l1), m.score1, m.score2)
            && SideCredited(At(t, l2), At(r, l2), m.score2, m.score1))
      && (l1 == l2 ==>
            && At(r, l1).teamId == At(t, l1).teamId
            && At(r, l1).name == At(t, l1).name
            && At(r, l1).group == At(t, l1).group
            && At(r, l1).played == At(t, l1).played + 2
            && At(r, l1).pointsFor == At(t, l1).pointsFor + m.score1 + m.score2
            && At(r, l1).pointsAgainst == At(t, l1).pointsAgainst + m.score1 + m.score2
            && At(r, l1).wins == At(t, l1).wins + (if m.score1 != m.score2 then 1 else 0)
            && At(r, l1).losses == At(t, l1).losses + (if m.score1 != m.score2 then 1 else 0))
  {
    var l1 := Locate(Ids(t), m.team1Id).value;
    var l2 := Locate(Ids(t), m.team2Id).value;
    var r := ApplyMatch(t, m);
    assert Ids(r)[l1.b] == Ids(t)[l1.b] && Ids(r)[l2.b] == Ids(t)[l2.b];
    forall l | ValidLoc(t, l) && l != l1 && l != l2
      ensures ValidLoc(r, l) && At(r, l) == At(t, l)
    {
      assert Ids(r)[l.b] == Ids(t)[l.b];
    }
  }

  /** One side's record of a match: scored `pf`, conceded `pa`. */
  predicate SideCredited(before: Standing, after: Standing, pf: int, pa: int) {
    && after.teamId == before.teamId
    && after.name == before.name
    && after.group == before.group
    && after.played == before.played + 1
    && after.pointsFor == before.pointsFor + pf
    && after.pointsAgainst == before.pointsAgainst + pa
    && after.wins == before.wins + (if pf > pa then 1 else 0)
    && after.losses == before.losses + (if pf < pa then 1 else 0)
  }

  /** The fold adds to each column total exactly what the counted matches contribute. */
  lemma {:induction false} TallyTotal(t: Table, ms: seq<Match>, f: Field)
    ensures Total(Tally(t, ms), f) == Total(t, f) + GainOf(Counted(t, ms), f)
    decreases |ms|
  {
    if ms != [] {
      var t' := ApplyMatch(t, ms[0]);
      ApplyMatchTotal(t, ms[0], f);
      TallyTotal(t', ms[1..], f);
      assert Counted(t', ms[1..]) == Counted(t, ms[1..]) by {
        CountedIds(t, t', ms[1..]);
      }
    }
  }

  /** Which matches count depends only on the table's team ids. */
  lemma {:induction false} CountedIds(t: Table, t': Table, ms: seq<Match>)
    requires Ids(t) == Ids(t')
    ensures Counted(t, ms) == Counted(t', ms)
  {
    if ms != [] {
      CountedIds(t, t', ms[1..]);
    }
  }

  lemma {:induction false} GainOfFields(ms: seq<Match>)
    ensures GainOf(ms, Played) == 2 * |ms|
    ensures GainOf(ms, Wins) == Decisive(ms) && GainOf(ms, Losses) == Decisive(ms)
    ensures GainOf(ms, PointsFor) == Scored(ms) && GainOf(ms, PointsAgainst) == Scored(ms)
  {
    if ms != [] {
      GainOfFields(ms[1..]);
    }
  }

  /**
   * Over the fold: each counted match adds 2 games played, one win and one
   * loss when decisive and none when tied, and the same points to the
   * points-for and points-against totals.
   */
  lemma TallyTotals(t: Table, ms: seq<Match>)
    ensures Total(Tally(t, ms), Played) == Total(t, Played) + 2 * |Counted(t, ms)|
    ensures Total(Tally(t, ms), Wins) == Total(t, Wins) + Decisive(Counted(t, ms))
    ensures Total(Tally(t, ms), Losses) == Total(t, Losses) + Decisive(Counted(t, ms))
    ensures Total(Tally(t, ms), PointsFor) - Total(t, PointsFor)
         == Total(Tally(t, ms), PointsAgainst) - Total(t, PointsAgainst)
         == Scored(Counted(t, ms))
  {
    TallyTotal(t, ms, Played);
    TallyTotal(t, ms, Wins);
    TallyTotal(t, ms, Losses);
    TallyTotal(t, ms, PointsFor);
    TallyTotal(t, ms, PointsAgainst);
    GainOfFields(Counted(t, ms));
  }

  // ---------------------------------------------------------------------
  // Coherence of the derived columns
  // ---------------------------------------------------------------------

  lemma UpdateCoherent(t: Table, l: Loc, x: Standing)
    requires AllCoherent(t) && Coherent(x)
    requires ValidLoc(t, l) && x.teamId == At(t, l).teamId
    ensures AllCoherent(Update(t, l, x))
  {
    var r := Update(t, l, x);
    forall b, i | 0 <= b < |r| && 0 <= i < |r[b].entries|
      ensures Coherent(r[b].entries[i])
    {
      assert ValidLoc(t, Loc(b, i));
    }
  }

  /** Folding a match keeps every standing's diff, ppg and win/loss bound in step. */
  lemma ApplyMatchCoherent(t: Table, m: Match)
    requires AllCoherent(t)
    ensures AllCoherent(ApplyMatch(t, m))
  {
    if Counts(t, m) {
      var l1 := Locate(Ids(t), m.team1Id).value;
      var l2 := Locate(Ids(t), m.team2Id).value;
      var c1 := Credit(At(t, l1), m.score1, m.score2);
      var t1 := Update(t, l1, c1);
      UpdateCoherent(t, l1, c1);
      UpdateCoherent(t1, l2, Credit(At(t1, l2), m.score2, m.score1));
    }
  }

  // ---------------------------------------------------------------------
  // Labels: the fold never renames or regroups a standing
  // ---------------------------------------------------------------------

  /** `u` has the shape of `t`, and every standing keeps its name and group. */
  predicate SameLabels(t: Table, u: Table) {
    && |u| == |t|
    && (forall b :: 0 <= b < |t| ==> |u[b].entries| == |t[b].entries|)
    && (forall b, i :: 0 <= b < |t| && 0 <= i < |t[b].entries| ==>
          u[b].entries[i].name == t[b].entries[i].name && u[b].entries[i].group == t[b].entries[i].group)
  }

  lemma UpdateLabels(t: Table, l: Loc, x: Standing)
    requires ValidLoc(t, l) && x.teamId == At(t, l).teamId
    requires x.name == At(t, l).name && x.group == At(t, l).group
    ensures SameLabels(t, Update(t, l, x))
  {
    var r := Update(t, l, x);
    forall b | 0 <= b < |t| ensures |r[b].entries| == |t[b].entries| {
      assert Ids(r)[b] == Ids(t)[b];
    }
    forall b, i | 0 <= b < |t| && 0 <= i < |t[b].entries|
      ensures r[b].entries[i].name == t[b].entries[i].name && r[b].entries[i].group == t[b].entries[i].group
    {
      assert ValidLoc(t, Loc(b, i));
    }
  }

  /** Folding a match changes no standing's name or group. */
  lemma ApplyMatchLabels(t: Table, m: Match)
    ensures SameLabels(t, ApplyMatch(t, m))
  {
    if Counts(t, m) {
      var l1 := Locate(Ids(t), m.team1Id).value;
      var l2 := Locate(Ids(t), m.team2Id).value;
      var c1 := Credit(At(t, l1), m.score1, m.score2);
      var t1 := Update(t, l1, c1);
      UpdateLabels(t, l1, c1);
      assert Ids(t1)[l2.b] == Ids(t)[l2.b];
      UpdateLabels(t1, l2, Credit(At(t1, l2), m.score2, m.score1));
    }
  }

  /** The whole fold changes no standing's name or group. */
  lemma {:induction false} TallyLabels(t: Table, ms: seq<Match>)
    ensures SameLabels(t, Tally(t, ms))
    decreases |ms|
  {
    if ms != [] {
      ApplyMatchLabels(t, ms[0]);
      TallyLabels(ApplyMatch(t, ms[0]), ms[1..]);
    }
  }

  lemma {:induction false} TallyCoherent(t: Table, ms: seq<Match>)
    requires AllCoherent(t)
    ensures AllCoherent(Tally(t, ms))
    decreases |ms|
  {
    if ms != [] {
      ApplyMatchCoherent(t, ms[0]);
      TallyCoherent(ApplyMatch(t, ms[0]), ms[1..]);
    }
  }
}

=== FILE: lifecycle.dfy ===
/**
 * The round controls of the admin page: Start, Finish and Restart, each an
 * update of one round followed by a bulk update of that round's matches,
 * modelled as one atomic step on a snapshot of the two tables.
 */
module Lifecycle {
  import opened Wrappers
  import opened Records

  /** The rounds and matches tables at one instant. */
  datatype Snapshot = Snapshot(rounds: seq<Round>, matches: seq<Match>)

  /** The button shown next to a round. */
  datatype Action = Start | Finish | Restart

  /** The status an action gives the round and its matches. */
  function Target(a: Action): Status {
    match a
    case Start => Active
    case Finish => Finished
    case Restart => Pending
  }

  /** The round row after the first update of an action. */
  function RoundAfter(r: Round, a: Action, now: Timestamp): Round {
    match a
    case Start => r.(status := Active, startTime := Some(now))
    case Finish => r.(status := Finished, endTime := Some(now))
    case Restart => r.(status := Pending, startTime := None, endTime := None)
  }

  /** A match row of the round after the bulk update of an action. */
  function MatchAfter(m: Match, a: Action): Match {
    match a
    case Start => m.(status := Active)
    case Finish => m.(status := Finished)
    case Restart => m.(status := Pending, score1 := 0, score2 := 0)
  }

  /**
   * `update(...).eq('id', roundId)` on rounds, then `update(...).eq('round_id',
   * roundId)` on matches. `now` stands for `new Date().toISOString()`.
   */
  function Apply(s: Snapshot, a: Action, roundId: Id, now: Timestamp): (r: Snapshot)
    ensures Untouched(s, r, roundId) && Mirrored(r, roundId, Target(a))
  {
    Snapshot(
      seq(|s.rounds|, i requires 0 <= i < |s.rounds| =>
        if s.rounds[i].id == roundId then RoundAfter(s.rounds[i], a, now) else s.rounds[i]),
      seq(|s.matches|, j requires 0 <= j < |s.matches| =>
        if s.matches[j].roundId == roundId then MatchAfter(s.matches[j], a) else s.matches[j]))
  }

  /**
   * Everything outside round `roundId` and its matches is as before, no
   * round changes id or number, and no match changes id, round, court or teams.
   */
  predicate Untouched(s: Snapshot, r: Snapshot, roundId: Id) {
    && |r.rounds| == |s.rounds| && |r.matches| == |s.matches|
    && (forall i :: 0 <= i < |s.rounds| ==>
          && r.rounds[i].id == s.rounds[i].id
          && r.rounds[i].number == s.rounds[i].number
          && (s.rounds[i].id != roundId ==> r.rounds[i] == s.rounds[i]))
    && (forall j :: 0 <= j < |s.matches| ==>
          && r.matches[j].id == s.matches[j].id
          && r.matches[j].roundId == s.matches[j].roundId
          && r.matches[j].court == s.matches[j].court
          && r.matches[j].team1Id == s.matches[j].team1Id
          && r.matches[j].team2Id == s.matches[j].team2Id
          && (s.matches[j].roundId != roundId ==> r.matches[j] == s.matches[j]))
  }

  /** Round `roundId` and all of its matches carry status `st`: no partial update. */
  predicate Mirrored(s: Snapshot, roundId: Id, st: Status) {
    && (forall i :: 0 <= i < |s.rounds| && s.rounds[i].id == roundId ==> s.rounds[i].status == st)
    && (forall j :: 0 <= j < |s.matches| && s.matches[j].roundId == roundId ==> s.matches[j].status == st)
  }

  /** A round as created: pending, never started, and its matches pending at 0-0. */
  predicate Pristine(s: Snapshot, roundId: Id) {
    && (forall i :: 0 <= i < |s.rounds| && s.rounds[i].id == roundId ==>
          s.rounds[i].status == Pending && s.rounds[i].startTime.None? && s.rounds[i].endTime.None?)
    && (forall j :: 0 <= j < |s.matches| && s.matches[j].roundId == roundId ==>
          s.matches[j].status == Pending && s.matches[j].score1 == 0 && s.matches[j].score2 == 0)
  }

  /** Start: the round becomes active from `now`; its matches become active with scores kept. */
  function StartRound(s: Snapshot, roundId: Id, now: Timestamp): (r: Snapshot)
    ensures Untouched(s, r, roundId) && Mirrored(r, roundId, Active)
    ensures forall i :: 0 <= i < |s.rounds| && s.rounds[i].id == roundId ==>
              r.rounds[i].startTime == Some(now) && r.rounds[i].endTime == s.rounds[i].endTime
    ensures forall j :: 0 <= j < |s.matches| ==>
              r.matches[j].score1 == s.matches[j].score1 && r.matches[j].score2 == s.matches[j].score2
  {
    Apply(s, Start, roundId, now)
  }

  /** Finish: the round becomes finished at `now`; its matches become finished with scores kept. */
  function FinishRound(s: Snapshot, roundId: Id, now: Timestamp): (r: Snapshot)
    ensures Untouched(s, r, roundId) && Mirrored(r, roundId, Finished)
    ensures forall i :: 0 <= i < |s.rounds| && s.rounds[i].id == roundId ==>
              r.rounds[i].endTime == Some(now) && r.rounds[i].startTime == s.rounds[i].startTime
    ensures forall j :: 0 <= j < |s.matches| ==>
              r.matches[j].score1 == s.matches[j].score1 && r.matches[j].score2 == s.matches[j].score2
  {
    Apply(s, Finish, roundId, now)
  }

  /** Restart: the round and its matches are back to the state they were created in. */
  function ResetRound(s: Snapshot, roundId: Id): (r: Snapshot)
    ensures Untouched(s, r, roundId) && Mirrored(r, roundId, Pending) && Pristine(r, roundId)
  {
    // the restart update never reads the clock
    Apply(s, Restart, roundId, "")
  }

  // ---------------------------------------------------------------------
  // The buttons (admin/page.tsx:177-179)
  // ---------------------------------------------------------------------

  /** The one button shown for a round in status `st`. */
  function Offer(st: Status): (a: Action)
    ensures Cycles(st, Target(a))
  {
    match st
    case Pending => Start
    case Active => Finish
    case Finished => Restart
  }

  /** Pressing the button shown on the `i`-th round row. */
  function Click(s: Snapshot, i: nat, now: Timestamp): (r: Snapshot)
    requires i < |s.rounds|
    ensures Untouched(s, r, s.rounds[i].id)
    ensures Cycles(s.rounds[i].status, r.rounds[i].status)
  {
    var a := Offer(s.rounds[i].status);
    match a
    case Start => StartRound(s, s.rounds[i].id, now)
    case Finish => FinishRound(s, s.rounds[i].id, now)
    case Restart => ResetRound(s, s.rounds[i].id)
  }

  /** The status cycle the buttons drive a round around. */
  predicate Cycles(before: Status, after: Status) {
    || (before == Pending && after == Active)
    || (before == Active && after == Finished)
    || (before == Finished && after == Pending)
  }

  /**
   * Every click moves the clicked round, every round sharing its id and all
   * of their matches one step along pending -> active -> finished -> pending,
   * and touches nothing else.
   */
  lemma ClickCycles(s: Snapshot, i: nat, now: Timestamp)
    requires i < |s.rounds|
    ensures var r := Click(s, i, now);
      && Cycles(s.rounds[i].status, r.rounds[i].status)
      && Mirrored(r, s.rounds[i].id, r.rounds[i].status)
      && Untouched(s, r, s.rounds[i].id)
  {
  }

  /** Three clicks on the same row bring its status back: the cycle has length three. */
  lemma {:induction false} ClickThrice(s: Snapshot, i: nat, t1: Timestamp, t2: Timestamp, t3: Timestamp)
    requires i < |s.rounds|
    ensures var s1 := Click(s, i, t1);
      var s2 := Click(s1, i, t2);
      var s3 := Click(s2, i, t3);
      && s1.rounds[i].status != s.rounds[i].status
      && s2.rounds[i].status != s.rounds[i].status
      && s3.rounds[i].status == s.rounds[i].status
  {
    ClickCycles(s, i, t1);
    var s1 := Click(s, i, t1);
    ClickCycles(s1, i, t2);
    var s2 := Click(s1, i, t2);
    ClickCycles(s2, i, t3);
  }

  // ---------------------------------------------------------------------
  // Algebra of the transitions
  // ---------------------------------------------------------------------

  /** Restarting twice is restarting once. */
  lemma ResetIdempotent(s: Snapshot, roundId: Id)
    ensures ResetRound(ResetRound(s, roundId), roundId) == ResetRound(s, roundId)
  {
    var r := ResetRound(s, roundId);
    var rr := ResetRound(r, roundId);
    assert rr.rounds == r.rounds;
    assert rr.matches == r.matches;
  }

  /** Restart leaves a round that was never started exactly as it was. */
  lemma ResetPristine(s: Snapshot, roundId: Id)
    requires Pristine(s, roundId)
    ensures ResetRound(s, roundId) == s
  {
    var r := ResetRound(s, roundId);
    assert r.rounds == s.rounds;
    assert r.matches == s.matches;
  }

  /**
   * A full lifecycle round trip: a round as created, started, finished and
   * restarted is back exactly where it began, whatever the clock read.
   */
  lemma LifecycleRoundTrip(s: Snapshot, roundId: Id, started: Timestamp, finished: Timestamp)
    requires Pristine(s, roundId)
    ensures ResetRound(FinishRound(StartRound(s, roundId, started), roundId, finished), roundId) == s
  {
    var r := ResetRound(FinishRound(StartRound(s, roundId, started), roundId, finished), roundId);
    assert r.rounds == s.rounds;
    assert r.matches == s.matches;
  }

  /** Transitions of two different rounds touch disjoint rows, so their order does not matter. */
  lemma Commute(s: Snapshot, a: Action, x: Id, n: Timestamp, b: Action, y: Id, m: Timestamp)
    requires x != y
    ensures Apply(Apply(s, a, x, n), b, y, m) == Apply(Apply(s, b, y, m), a, x, n)
  {
    var l := Apply(Apply(s, a, x, n), b, y, m);
    var r := Apply(Apply(s, b, y, m), a, x, n);
    assert l.rounds == r.rounds;
    assert l.matches == r.matches;
  }
}

=== FILE: qualifiers.dfy ===
/**
 * Semifinal qualifiers as the standings page picks them from the ranked
 * table: the first team of every group, then the single runner-up with the
 * best points per game.
 */
module Qualifiers {
  import opened Wrappers
  import opened Records
  import opened Standings
  import Ranking

  /** JavaScript truthiness of an optional id: present and not the empty string. */
  predicate Truthy(x: Option<Id>) {
    x.Some? && x.value != ""
  }

  /** `.filter(Boolean)` over optional ids. */
  function KeepTruthy(xs: seq<Option<Id>>): (r: seq<Id>)
    ensures |r| <= |xs|
    ensures forall i :: 0 <= i < |r| ==> r[i] != ""
    ensures forall x :: Truthy(x) && x in xs ==> x.value in r
  {
    if xs == [] then []
    else (if Truthy(xs[0]) then [xs[0].value] else []) + KeepTruthy(xs[1..])
  }

  /** The team id of a bucket's first standing, if it has one. */
  function Top(bucket: Bucket): Option<Id> {
    if |bucket.entries| > 0 then Some(bucket.entries[0].teamId) else None
  }

  /** The truthy group winners' ids, in group order. */
  function Tops(t: Table): (r: seq<Id>)
    ensures |r| <= |t|
    ensures forall i :: 0 <= i < |r| ==> r[i] != ""
  {
    KeepTruthy(seq(|t|, b requires 0 <= b < |t| => Top(t[b])))
  }

  /** `groupStandings[1]` of every group that has one, in group order. */
  function Seconds(t: Table): (r: seq<Standing>)
    ensures |r| <= |t|
  {
    if t == [] then []
    else (if |t[0].entries| >= 2 then [t[0].entries[1]] else []) + Seconds(t[1..])
  }

  /** The runner-up that a stable sort by descending ppg puts first, if any. */
  function BestSecond(seconds: seq<Standing>): (r: Option<Standing>)
    ensures r.Some? <==> seconds != []
    ensures r.Some? ==> r.value in seconds
  {
    var sorted := Ranking.Sort(Ranking.ByPpg, seconds);
    Ranking.SortPermutes(Ranking.ByPpg, seconds);
    assert |sorted| > 0 ==> sorted[0] in multiset(sorted);
    if |sorted| > 0 then Some(sorted[0]) else None
  }

  /** `[...tops, bestSecond].filter(Boolean)`; `tops` is already filtered. */
  function Qualify(t: Table): (r: seq<Id>)
    ensures |r| <= |t| + 1
    ensures forall i :: 0 <= i < |r| ==> r[i] != ""
  {
    var best := match BestSecond(Seconds(t))
      case Some(s) => Some(s.teamId)
      case None => None;
    Tops(t) + KeepTruthy([best])
  }

  // ---------------------------------------------------------------------
  // Reference definitions
  // ---------------------------------------------------------------------

  predicate HasRunnerUp(t: Table) {
    exists b :: 0 <= b < |t| && |t[b].entries| >= 2
  }

  /** Every group's first team, skipping empty groups, in group order. */
  function Leaders(t: Table): seq<Id> {
    if t == [] then []
    else (if |t[0].entries| > 0 then [t[0].entries[0].teamId] else []) + Leaders(t[1..])
  }

  /** How many groups have at least one team. */
  function NonEmpty(t: Table): (n: nat)
    ensures n <= |t|
  {
    if t == [] then 0 else (if |t[0].entries| > 0 then 1 else 0) + NonEmpty(t[1..])
  }

  /** Every standing carries a non-empty team id, as store-generated ids do. */
  predicate IdsTruthy(t: Table) {
    forall b, i :: 0 <= b < |t| && 0 <= i < |t[b].entries| ==> t[b].entries[i].teamId != ""
  }

  /**
   * The runner-up of `seconds` with the highest points per game; on a tie
   * the one met first.
   */
  predicate IsBestSecond(seconds: seq<Standing>, s: Standing) {
    exists k :: 0 <= k < |seconds| && seconds[k] == s
      && (forall j :: 0 <= j < |seconds| ==> seconds[j].ppg <= s.ppg)
      && (forall j :: 0 <= j < k ==> seconds[j].ppg < s.ppg)
  }

  /**
   * The same choice stated over the table: the second standing of some
   * group `b`, with points per game at least every group's second's, and
   * strictly more than that of every earlier group's second.
   */
  predicate IsBestRunnerUp(t: Table, s: Standing) {
    exists b :: 0 <= b < |t| && |t[b].entries| >= 2 && t[b].entries[1] == s
      && (forall c :: 0 <= c < |t| && |t[c].entries| >= 2 ==> t[c].entries[1].ppg <= s.ppg)
      && (forall c :: 0 <= c < b && |t[c].entries| >= 2 ==> t[c].entries[1].ppg < s.ppg)
  }

  // ---------------------------------------------------------------------
  // Properties
  // ---------------------------------------------------------------------

  /** The first standing of a key's run in `s` sits after standings of other keys only. */
  lemma {:induction false} WithKeyFirst(o: Ranking.Order, s: seq<Standing>, k: Ranking.Key)
    requires Ranking.WithKey(o, s, k) != []
    ensures exists idx :: 0 <= idx < |s| && s[idx] == Ranking.WithKey(o, s, k)[0]
              && forall j :: 0 <= j < idx ==> Ranking.KeyOf(o, s[j]) != k
  {
    if Ranking.KeyOf(o, s[0]) != k {
      WithKeyFirst(o, s[1..], k);
      var idx :| 0 <= idx < |s[1..]| && s[1..][idx] == Ranking.WithKey(o, s[1..], k)[0]
                 && forall j :: 0 <= j < idx ==> Ranking.KeyOf(o, s[1..][j]) != k;
      assert s[idx + 1] == s[1..][idx];
      forall j | 0 <= j < idx + 1 ensures Ranking.KeyOf(o, s[j]) != k {
        if j > 0 { assert s[j] == s[1..][j - 1]; }
      }
    }
  }

  /**
   * The runner-up the page picks has the highest points per game of all
   * runners-up, and is the first of them to have it; there is one exactly
   * when some group has a second team.
   */
  lemma BestSecondSpec(seconds: seq<Standing>)
    ensures BestSecond(seconds).None? <==> seconds == []
    ensures BestSecond(seconds).Some? ==> IsBestSecond(seconds, BestSecond(seconds).value)
  {
    var sorted := Ranking.Sort(Ranking.ByPpg, seconds);
    if sorted != [] {
      var best := sorted[0];
      var k := Ranking.KeyOf(Ranking.ByPpg, best);
      Ranking.SortPermutes(Ranking.ByPpg, seconds);
      Ranking.SortRanked(Ranking.ByPpg, seconds);
      Ranking.SortStable(Ranking.ByPpg, seconds, k);
      forall j | 0 <= j < |seconds| ensures seconds[j].ppg <= best.ppg {
        assert seconds[j] in multiset(sorted);
        Ranking.RankedHead(Ranking.ByPpg, sorted, seconds[j]);
      }
      assert sorted == [best] + sorted[1..];
      Ranking.WithKeyCons(Ranking.ByPpg, best, sorted[1..], k);
      WithKeyFirst(Ranking.ByPpg, seconds, k);
    }
  }

  /**
   * Which groups supply a runner-up: the runners-up are exactly the second
   * standings of the groups that have one.
   */
  lemma SecondsSpec(t: Table)
    ensures Seconds(t) != [] <==> HasRunnerUp(t)
    ensures forall s :: s in Seconds(t) ==>
              exists b :: 0 <= b < |t| && |t[b].entries| >= 2 && t[b].entries[1] == s
    ensures forall b :: 0 <= b < |t| && |t[b].entries| >= 2 ==> t[b].entries[1] in Seconds(t)
  {
    SecondsSound(t);
    SecondsComplete(t);
  }

  lemma {:induction false} SecondsSound(t: Table)
    ensures Seconds(t) != [] <==> HasRunnerUp(t)
    ensures forall s :: s in Seconds(t) ==>
              exists b :: 0 <= b < |t| && |t[b].entries| >= 2 && t[b].entries[1] == s
  {
    if t != [] {
      SecondsSound(t[1..]);
      if HasRunnerUp(t[1..]) {
        var b :| 0 <= b < |t[1..]| && |t[1..][b].entries| >= 2;
        assert t[b + 1] == t[1..][b];
      }
      if HasRunnerUp(t) && |t[0].entries| < 2 {
        var b :| 0 <= b < |t| && |t[b].entries| >= 2;
        assert t[1..][b - 1] == t[b];
      }
      forall s | s in Seconds(t[1..])
        ensures exists b :: 0 <= b < |t| && |t[b].entries| >= 2 && t[b].entries[1] == s
      {
        var b :| 0 <= b < |t[1..]| && |t[1..][b].entries| >= 2 && t[1..][b].entries[1] == s;
        assert t[b + 1] == t[1..][b];
      }
    }
  }

  lemma {:induction false} SecondsComplete(t: Table)
    ensures forall b :: 0 <= b < |t| && |t[b].entries| >= 2 ==> t[b].entries[1] in Seconds(t)
  {
    if t != [] {
      SecondsComplete(t[1..]);
      forall b | 0 < b < |t| && |t[b].entries| >= 2
        ensures t[b].entries[1] in Seconds(t)
      {
        assert t[1..][b - 1] == t[b];
      }
    }
  }

  /** The runner-up chosen from `Seconds(t)` is the table's best runner-up. */
  lemma BestRunnerUp(t: Table, s: Standing)
    requires IsBestSecond(Seconds(t), s)
    ensures IsBestRunnerUp(t, s)
  {
    var sec := Seconds(t);
    var k :| 0 <= k < |sec| && sec[k] == s
      && (forall j :: 0 <= j < |sec| ==> sec[j].ppg <= s.ppg)
      && (forall j :: 0 <= j < k ==> sec[j].ppg < s.ppg);
    SecondsComplete(t);
    forall c | 0 <= c < |t| && |t[c].entries| >= 2
      ensures t[c].entries[1].ppg <= s.ppg
    {
      var j :| 0 <= j < |sec| && sec[j] == t[c].entries[1];
    }
    RunnerUpAt(t, k, s.ppg);
  }

  /**
   * The `k`-th runner-up is the second standing of some group `b`, and when
   * every earlier runner-up has ppg below `bound`, so does the second
   * standing of every group before `b`.
   */
  lemma {:induction false} RunnerUpAt(t: Table, k: nat, bound: real)
    requires k < |Seconds(t)|
    requires forall j :: 0 <= j < k ==> Seconds(t)[j].ppg < bound
    ensures exists b :: 0 <= b < |t| && |t[b].entries| >= 2 && t[b].entries[1] == Seconds(t)[k]
              && (forall c :: 0 <= c < b && |t[c].entries| >= 2 ==> t[c].entries[1].ppg < bound)
  {
    var sec := Seconds(t);
    var rest := Seconds(t[1..]);
    if |t[0].entries| >= 2 && k == 0 {
      assert sec[0] == t[0].entries[1];
    } else {
      var d := if |t[0].entries| >= 2 then 1 else 0;
      assert sec == (if d == 1 then [t[0].entries[1]] else []) + rest;
      assert rest[k - d] == sec[k];
      forall j | 0 <= j < k - d ensures rest[j].ppg < bound {
        assert rest[j] == sec[j + d];
      }
      RunnerUpAt(t[1..], k - d, bound);
      var b :| 0 <= b < |t[1..]| && |t[1..][b].entries| >= 2 && t[1..][b].entries[1] == sec[k]
        && (forall c :: 0 <= c < b && |t[1..][c].entries| >= 2 ==> t[1..][c].entries[1].ppg < bound);
      assert t[b + 1] == t[1..][b];
      forall c | 0 <= c < b + 1 && |t[c].entries| >= 2
        ensures t[c].entries[1].ppg < bound
      {
        if c > 0 {
          assert t[c] == t[1..][c - 1];
        } else {
          assert sec[0] == t[0].entries[1];
        }
      }
    }
  }

  /** There is at most one best runner-up. */
  lemma BestRunnerUpUnique(t: Table, s1: Standing, s2: Standing)
    requires IsBestRunnerUp(t, s1) && IsBestRunnerUp(t, s2)
    ensures s1 == s2
  {
    var b1 :| 0 <= b1 < |t| && |t[b1].entries| >= 2 && t[b1].entries[1] == s1
      && (forall c :: 0 <= c < |t| && |t[c].entries| >= 2 ==> t[c].entries[1].ppg <= s1.ppg)
      && (forall c :: 0 <= c < b1 && |t[c].entries| >= 2 ==> t[c].entries[1].ppg < s1.ppg);
    var b2 :| 0 <= b2 < |t| && |t[b2].entries| >= 2 && t[b2].entries[1] == s2
      && (forall c :: 0 <= c < |t| && |t[c].entries| >= 2 ==> t[c].entries[1].ppg <= s2.ppg)
      && (forall c :: 0 <= c < b2 && |t[c].entries| >= 2 ==> t[c].entries[1].ppg < s2.ppg);
  }

  lemma {:induction false} TopsLeaders(t: Table)
    requires IdsTruthy(t)
    ensures Tops(t) == Leaders(t)
    ensures |Leaders(t)| == NonEmpty(t)
  {
    if t != [] {
      var tops := seq(|t|, b requires 0 <= b < |t| => Top(t[b]));
      assert tops[1..] == seq(|t[1..]|, b requires 0 <= b < |t[1..]| => Top(t[1..][b]));
      assert IdsTruthy(t[1..]) by {
        forall b, i | 0 <= b < |t[1..]| && 0 <= i < |t[1..][b].entries|
          ensures t[1..][b].entries[i].teamId != ""
        {
          assert t[1..][b] == t[b + 1];
        }
      }
      TopsLeaders(t[1..]);
    }
  }

  /**
   * With non-empty team ids the qualifiers are the winner of every
   * non-empty group in group order, followed by the best runner-up when
   * some group has one.
   */
  lemma QualifyShape(t: Table)
    requires IdsTruthy(t)
    ensures HasRunnerUp(t) ==>
              && BestSecond(Seconds(t)).Some?
              && IsBestSecond(Seconds(t), BestSecond(Seconds(t)).value)
              && IsBestRunnerUp(t, BestSecond(Seconds(t)).value)
              && Qualify(t) == Leaders(t) + [BestSecond(Seconds(t)).value.teamId]
    ensures !HasRunnerUp(t) ==> Qualify(t) == Leaders(t)
    ensures |Qualify(t)| == NonEmpty(t) + (if HasRunnerUp(t) then 1 else 0)
  {
    TopsLeaders(t);
    SecondsSpec(t);
    BestSecondSpec(Seconds(t));
    if HasRunnerUp(t) {
      var s := BestSecond(Seconds(t)).value;
      assert s in Seconds(t);
      var b :| 0 <= b < |t| && |t[b].entries| >= 2 && t[b].entries[1] == s;
      assert s.teamId != "";
      BestRunnerUp(t, s);
    }
  }

  /**
   * At most one qualifier per group plus one; exactly one per group plus
   * one iff every group has a team and some group has two.
   */
  lemma QualifyLength(t: Table)
    ensures |Qualify(t)| <= |t| + 1
    ensures IdsTruthy(t) ==>
              (|Qualify(t)| == |t| + 1 <==>
               (forall b :: 0 <= b < |t| ==> |t[b].entries| > 0) && HasRunnerUp(t))
  {
    assert |Tops(t)| <= |t|;
    if IdsTruthy(t) {
      QualifyShape(t);
      AllNonEmpty(t);
    }
  }

  lemma {:induction false} AllNonEmpty(t: Table)
    ensures NonEmpty(t) == |t| <==> forall b :: 0 <= b < |t| ==> |t[b].entries| > 0
  {
    if t != [] {
      AllNonEmpty(t[1..]);
      if NonEmpty(t) == |t| {
        forall b | 0 <= b < |t| ensures |t[b].entries| > 0 {
          if b > 0 { assert t[b] == t[1..][b - 1]; }
        }
      }
      if forall b :: 0 <= b < |t| ==> |t[b].entries| > 0 {
        forall b | 0 <= b < |t[1..]| ensures |t[1..][b].entries| > 0 {
          assert t[1..][b] == t[b + 1];
        }
      }
    }
  }
}

=== FILE: ranking.dfy ===
/**
 * The two `Array.prototype.sort` calls of the standings page, modelled as a
 * stable insertion sort driven by the page's own comparator functions.
 * The sort is pinned down by three facts proved here: it permutes its input,
 * its output is ordered by the comparator, and standings the comparator
 * cannot tell apart keep their input order. `SortUnique` shows these three
 * facts leave no freedom, so any stable sort (as ECMAScript requires of
 * `Array.prototype.sort`) returns the same sequence.
 */
module Ranking {
  import opened Records

  /** Which comparator is in use: the group table's, or the runner-ups'. */
  datatype Order = ByRecord | ByPpg

  /** What a comparator looks at, most significant component first. */
  datatype Key = Key(wins: int, diff: int, ppg: real)

  function KeyOf(o: Order, s: Standing): Key {
    match o
    case ByRecord => Key(s.wins, s.diff, s.ppg)
    case ByPpg => Key(0, 0, s.ppg)
  }

  /** Strict lexicographic "ranks higher than" on keys. */
  predicate Above(a: Key, b: Key) {
    || a.wins > b.wins
    || (a.wins == b.wins && a.diff > b.diff)
    || (a.wins == b.wins && a.diff == b.diff && a.ppg > b.ppg)
  }

  /**
   * The comparator as the page writes it: the first non-zero difference of
   * `b - a` over the key components. A positive value puts `b` before `a`.
   */
  function Compare(o: Order, a: Standing, b: Standing): (c: real)
    ensures c > 0.0 <==> Above(KeyOf(o, b), KeyOf(o, a))
    ensures c < 0.0 <==> Above(KeyOf(o, a), KeyOf(o, b))
    ensures c == 0.0 <==> KeyOf(o, a) == KeyOf(o, b)
  {
    match o
    case ByRecord =>
      if b.wins - a.wins != 0 then (b.wins - a.wins) as real
      else if b.diff - a.diff != 0 then (b.diff - a.diff) as real
      else b.ppg - a.ppg
    case ByPpg => b.ppg - a.ppg
  }

  /** No standing is placed after one that ranks strictly lower. */
  predicate Ranked(o: Order, s: seq<Standing>) {
    forall i, j :: 0 <= i < j < |s| ==> !Above(KeyOf(o, s[j]), KeyOf(o, s[i]))
  }

  /** The standings of `s` the comparator sees as key `k`, in their order in `s`. */
  function WithKey(o: Order, s: seq<Standing>, k: Key): (r: seq<Standing>)
    ensures |r| <= |s|
  {
    if s == [] then []
    else if KeyOf(o, s[0]) == k then [s[0]] + WithKey(o, s[1..], k)
    else WithKey(o, s[1..], k)
  }

  /** Places `x` before the first standing the comparator does not put ahead of it. */
  function Insert(o: Order, x: Standing, s: seq<Standing>): (r: seq<Standing>)
    ensures |r| == |s| + 1
  {
    if s == [] then [x]
    else if Compare(o, x, s[0]) > 0.0 then [s[0]] + Insert(o, x, s[1..])
    else [x] + s
  }

  /** Stable sort: earlier elements are inserted in front of their equals. */
  function Sort(o: Order, s: seq<Standing>): (r: seq<Standing>)
    ensures |r| == |s|
  {
    if s == [] then [] else Insert(o, s[0], Sort(o, s[1..]))
  }

  lemma {:induction false} InsertPermutes(o: Order, x: Standing, s: seq<Standing>)
    ensures multiset(Insert(o, x, s)) == multiset(s) + multiset{x}
  {
    if s != [] && Compare(o, x, s[0]) > 0.0 {
      InsertPermutes(o, x, s[1..]);
      assert s == [s[0]] + s[1..];
    }
  }

  /** The sort only reorders its input. */
  lemma {:induction false} SortPermutes(o: Order, s: seq<Standing>)
    ensures multiset(Sort(o, s)) == multiset(s)
  {
    if s != [] {
      SortPermutes(o, s[1..]);
      InsertPermutes(o, s[0], Sort(o, s[1..]));
      assert s == [s[0]] + s[1..];
    }
  }

  /** `Above` is a strict total order on keys. */
  lemma AboveTotal(a: Key, b: Key)
    ensures !(Above(a, b) && Above(b, a))
    ensures a == b || Above(a, b) || Above(b, a)
  {
  }

  lemma AboveTransitive(a: Key, b: Key, c: Key)
    requires !Above(b, a) && !Above(c, b)
    ensures !Above(c, a)
  {
  }

  lemma {:induction false} InsertRanked(o: Order, x: Standing, s: seq<Standing>)
    requires Ranked(o, s)
    ensures Ranked(o, Insert(o, x, s))
  {
    if s != [] && Compare(o, x, s[0]) > 0.0 {
      var t := Insert(o, x, s[1..]);
      InsertRanked(o, x, s[1..]);
      InsertPermutes(o, x, s[1..]);
      var r := [s[0]] + t;
      assert multiset(t) == multiset(s[1..]) + multiset{x};
      forall j | 0 < j < |r|
        ensures !Above(KeyOf(o, r[j]), KeyOf(o, r[0]))
      {
        assert r[j] in multiset(t);
        if r[j] in multiset(s[1..]) {
          var j' :| 0 <= j' < |s[1..]| && s[1..][j'] == r[j];
          assert s[j' + 1] == r[j];
        } else {
          assert r[j] == x;
        }
      }
    } else if s != [] {
      var r := [x] + s;
      forall i, j | 0 <= i < j < |r|
        ensures !Above(KeyOf(o, r[j]), KeyOf(o, r[i]))
      {
        if i == 0 {
          AboveTransitive(KeyOf(o, x), KeyOf(o, s[0]), KeyOf(o, r[j]));
        }
      }
    }
  }

  /** The sort's output is ordered by the comparator. */
  lemma {:induction false} SortRanked(o: Order, s: seq<Standing>)
    ensures Ranked(o, Sort(o, s))
  {
    if s != [] {
      SortRanked(o, s[1..]);
      InsertRanked(o, s[0], Sort(o, s[1..]));
    }
  }

  lemma WithKeyCons(o: Order, y: Standing, s: seq<Standing>, k: Key)
    ensures WithKey(o, [y] + s, k) == (if KeyOf(o, y) == k then [y] else []) + WithKey(o, s, k)
  {
    assert ([y] + s)[0] == y;
    assert ([y] + s)[1..] == s;
  }

  lemma {:induction false} InsertWithKey(o: Order, x: Standing, s: seq<Standing>, k: Key)
    ensures WithKey(o, Insert(o, x, s), k)
         == (if KeyOf(o, x) == k then [x] else []) + WithKey(o, s, k)
  {
    if s == [] {
      WithKeyCons(o, x, [], k);
    } else if Compare(o, x, s[0]) > 0.0 {
      // x moves past a head that ranks strictly higher, so never shares its key
      InsertWithKey(o, x, s[1..], k);
      WithKeyCons(o, s[0], Insert(o, x, s[1..]), k);
      WithKeyCons(o, s[0], s[1..], k);
      assert s == [s[0]] + s[1..];
      AboveTotal(KeyOf(o, s[0]), KeyOf(o, x));
    } else {
      WithKeyCons(o, x, s, k);
    }
  }

  /** Stability: standings with equal keys leave the sort in their input order. */
  lemma {:induction false} SortStable(o: Order, s: seq<Standing>, k: Key)
    ensures WithKey(o, Sort(o, s), k) == WithKey(o, s, k)
  {
    if s != [] {
      SortStable(o, s[1..], k);
      InsertWithKey(o, s[0], Sort(o, s[1..]), k);
    }
  }

  /** A ranked sequence starts with a standing no other standing in it outranks. */
  lemma RankedHead(o: Order, r: seq<Standing>, x: Standing)
    requires Ranked(o, r) && x in multiset(r)
    ensures !Above(KeyOf(o, x), KeyOf(o, r[0]))
  {
    var i :| 0 <= i < |r| && r[i] == x;
  }

  /** Peeling a standing of key `k` off the front of two key-wise equal orderings. */
  lemma WithKeyTails(o: Order, r1: seq<Standing>, r2: seq<Standing>, k: Key)
    requires r1 != [] && r2 != [] && KeyOf(o, r1[0]) == k && KeyOf(o, r2[0]) == k
    requires forall k' :: WithKey(o, r1, k') == WithKey(o, r2, k')
    ensures r1[0] == r2[0]
    ensures forall k' :: WithKey(o, r1[1..], k') == WithKey(o, r2[1..], k')
  {
    assert r1 == [r1[0]] + r1[1..] && r2 == [r2[0]] + r2[1..];
    WithKeyCons(o, r1[0], r1[1..], k);
    WithKeyCons(o, r2[0], r2[1..], k);
    assert WithKey(o, r1, k)[0] == r1[0];
    forall k' ensures WithKey(o, r1[1..], k') == WithKey(o, r2[1..], k') {
      WithKeyCons(o, r1[0], r1[1..], k');
      WithKeyCons(o, r2[0], r2[1..], k');
      if k' == k {
        assert WithKey(o, r1, k)[1..] == WithKey(o, r1[1..], k);
      }
    }
  }

  /** Two orderings of the same standings that are both ranked and agree key by key are equal. */
  lemma {:induction false} RankedUnique(o: Order, r1: seq<Standing>, r2: seq<Standing>)
    requires multiset(r1) == multiset(r2)
    requires Ranked(o, r1) && Ranked(o, r2)
    requires forall k :: WithKey(o, r1, k) == WithKey(o, r2, k)
    ensures r1 == r2
    decreases |r1|
  {
    assert |r1| == |multiset(r1)| == |multiset(r2)| == |r2|;
    if r1 != [] {
      RankedHead(o, r1, r2[0]);
      RankedHead(o, r2, r1[0]);
      AboveTotal(KeyOf(o, r1[0]), KeyOf(o, r2[0]));
      WithKeyTails(o, r1, r2, KeyOf(o, r1[0]));
      assert r1 == [r1[0]] + r1[1..] && r2 == [r2[0]] + r2[1..];
      assert multiset(r1) == multiset{r1[0]} + multiset(r1[1..]);
      assert multiset(r2) == multiset{r2[0]} + multiset(r2[1..]);
      assert r1[0] == r2[0];
      assert multiset(r1[1..]) == multiset(r1) - multiset{r1[0]};
      assert multiset(r2[1..]) == multiset(r2) - multiset{r2[0]};
      RankedUnique(o, r1[1..], r2[1..]);
    }
  }

  /**
   * `Sort` is the only stable sort: any permutation of `s` that is ranked
   * and keeps equal-key standings in input order is `Sort(o, s)`.
   */
  lemma SortUnique(o: Order, s: seq<Standing>, r: seq<Standing>)
    requires multiset(r) == multiset(s)
    requires Ranked(o, r)
    requires forall k :: WithKey(o, r, k) == WithKey(o, s, k)
    ensures r == Sort(o, s)
  {
    SortPermutes(o, s);
    SortRanked(o, s);
    forall k ensures WithKey(o, Sort(o, s), k) == WithKey(o, s, k) {
      SortStable(o, s, k);
    }
    RankedUnique(o, r, Sort(o, s));
  }
}

=== FILE: records.dfy ===
/**
 * The rows of the tournament's tables as the two pages read them, and the
 * derived per-team standing record the standings page computes.
 */
module Records {
  import opened Wrappers

  /** Row identifiers are opaque strings (UUIDs in the store). */
  type Id = string

  /** An ISO-8601 timestamp as produced by `new Date().toISOString()`. */
  type Timestamp = string

  /** The values the `status` column of rounds and matches takes. */
  datatype Status = Pending | Active | Finished

  datatype Group = Group(id: Id, name: string)

  datatype Team = Team(id: Id, name: string, groupId: Id)

  datatype Round = Round(
    id: Id,
    number: int,
    status: Status,
    startTime: Option<Timestamp>,
    endTime: Option<Timestamp>)

  datatype Match = Match(
    id: Id,
    roundId: Id,
    court: int,
    team1Id: Id,
    team2Id: Id,
    score1: int,
    score2: int,
    status: Status)

  /** One team's line in the standings table; `group` is the bucket name. */
  datatype Standing = Standing(
    teamId: Id,
    name: string,
    group: string,
    played: nat,
    wins: nat,
    losses: nat,
    pointsFor: int,
    pointsAgainst: int,
    diff: int,
    ppg: real)

  /** Points per game as the page derives it: zero before the first game. */
  function PointsPerGame(pointsFor: int, played: nat): real {
    if played > 0 then pointsFor as real / played as real else 0.0
  }

  /**
   * A standing whose derived columns agree with its counters, and whose
   * win/loss tally never exceeds the games played.
   */
  predicate Coherent(s: Standing) {
    && s.diff == s.pointsFor - s.pointsAgainst
    && s.ppg == PointsPerGame(s.pointsFor, s.played)
    && s.wins + s.losses <= s.played
  }
}

=== FILE: standings.dfy ===
/**
 * The standings table of the standings page before ranking: one zeroed
 * standing per team, bucketed by the name of the team's group, then every
 * finished match folded into the standings of both of its teams.
 */
module Standings {
  import opened Wrappers
  import opened Records

  /** One entry of `standingsMap`: a group name and its standings in insertion order. */
  datatype Bucket = Bucket(name: string, entries: seq<Standing>)

  type Table = seq<Bucket>

  /**
   * Why the computation aborts. Indexing a bucket that was never created
   * throws a TypeError in the page, so the standings are never published.
   */
  datatype Fault = MissingBucket(teamId: Id, groupName: string)

  /** The position of one standing: bucket index, then index inside the bucket. */
  datatype Loc = Loc(b: nat, i: nat)

  function Names(t: Table): (r: seq<string>)
    ensures |r| == |t|
    ensures forall b :: 0 <= b < |t| ==> r[b] == t[b].name
  {
    seq(|t|, b requires 0 <= b < |t| => t[b].name)
  }

  function GroupNames(groups: seq<Group>): (r: seq<string>)
    ensures |r| == |groups|
    ensures forall k :: 0 <= k < |groups| ==> r[k] == groups[k].name
  {
    seq(|groups|, k requires 0 <= k < |groups| => groups[k].name)
  }

  predicate Distinct<T(==)>(s: seq<T>) {
    forall i, j :: 0 <= i < j < |s| ==> s[i] != s[j]
  }

  // ---------------------------------------------------------------------
  // Initialisation (standings/page.tsx:34-56)
  // ---------------------------------------------------------------------

  /**
   * `standingsMap[g.name] = {}` for every group in turn. A repeated name
   * reassigns an existing key, which keeps its first position.
   */
  function EmptyBuckets(groups: seq<Group>): (t: Table)
    ensures forall b :: 0 <= b < |t| ==> t[b].entries == []
    ensures Distinct(Names(t))
    ensures forall n :: n in Names(t) <==> n in GroupNames(groups)
  {
    if groups == [] then []
    else
      var init := groups[..|groups| - 1];
      var last := groups[|groups| - 1];
      var t := EmptyBuckets(init);
      assert GroupNames(groups) == GroupNames(init) + [last.name];
      if last.name in Names(t) then t
      else
        var t' := t + [Bucket(last.name, [])];
        assert Names(t') == Names(t) + [last.name];
        t'
  }

  /** The first group whose id is `groupId` (`groups.find(g => g.id === t.group_id)`). */
  function FindGroup(groups: seq<Group>, groupId: Id): (r: Option<Group>)
    ensures r.Some? ==> exists k :: 0 <= k < |groups| && groups[k] == r.value
                          && r.value.id == groupId
                          && forall j :: 0 <= j < k ==> groups[j].id != groupId
    ensures r.None? ==> forall g :: g in groups ==> g.id != groupId
  {
    if groups == [] then None
    else if groups[0].id == groupId then Some(groups[0])
    else
      var r := FindGroup(groups[1..], groupId);
      if r.Some? then
        var k :| 0 <= k < |groups[1..]| && groups[1..][k] == r.value
                 && forall j :: 0 <= j < k ==> groups[1..][j].id != groupId;
        assert groups[k + 1] == r.value;
        assert forall j :: 0 <= j < k + 1 ==> groups[j].id != groupId by {
          forall j | 0 < j < k + 1 ensures groups[j].id != groupId {
            assert groups[j] == groups[1..][j - 1];
          }
        }
        r
      else r
  }

  /** Where the first group named `n` sits in `groups`; `|groups|` when none is. */
  function FirstNamed(groups: seq<Group>, n: string): nat {
    match IndexOf(GroupNames(groups), n)
    case Some(k) => k
    case None => |groups|
  }

  /** Bucket names are group names, ordered by where each first occurs among the groups. */
  predicate FirstOccurrenceOrder(groups: seq<Group>, t: Table) {
    && (forall b :: 0 <= b < |t| ==> FirstNamed(groups, t[b].name) < |groups|)
    && (forall b, c :: 0 <= b < c < |t| ==> FirstNamed(groups, t[b].name) < FirstNamed(groups, t[c].name))
  }

  /** The buckets come in the order their names first occur among the groups. */
  lemma {:induction false} EmptyBucketsOrder(groups: seq<Group>)
    ensures FirstOccurrenceOrder(groups, EmptyBuckets(groups))
  {
    if groups != [] {
      var init := groups[..|groups| - 1];
      var last := groups[|groups| - 1];
      var t := EmptyBuckets(init);
      var r := EmptyBuckets(groups);
      assert groups == init + [last];
      EmptyBucketsOrder(init);
      assert FirstOccurrenceOrder(init, t);
      FirstNamedExtend(groups, init, last);
      forall b | 0 <= b < |t|
        ensures t[b].name in GroupNames(init)
        ensures FirstNamed(groups, t[b].name) == FirstNamed(init, t[b].name) < |init|
      {
        assert t[b].name == Names(t)[b];
      }
      if last.name in Names(t) {
        assert r == t;
        forall b, c | 0 <= b < c < |r|
          ensures FirstNamed(groups, r[b].name) < FirstNamed(groups, r[c].name)
        {
          assert FirstNamed(init, t[b].name) < FirstNamed(init, t[c].name);
        }
      } else {
        assert r == t + [Bucket(last.name, [])];
        assert last.name !in GroupNames(init);
        forall b | 0 <= b < |r| ensures FirstNamed(groups, r[b].name) < |groups| {
          if b < |t| { assert r[b] == t[b]; }
        }
        forall b, c | 0 <= b < c < |r|
          ensures FirstNamed(groups, r[b].name) < FirstNamed(groups, r[c].name)
        {
          assert r[b] == t[b];
          if c < |t| {
            assert r[c] == t[c];
            assert FirstNamed(init, t[b].name) < FirstNamed(init, t[c].name);
          } else {
            assert r[c].name == last.name;
          }
        }
      }
    }
  }

  lemma FirstNamedExtend(groups: seq<Group>, init: seq<Group>, last: Group)
    requires groups == init + [last]
    ensures
      && (forall n :: n in GroupNames(init) ==> FirstNamed(groups, n) == FirstNamed(init, n))
      && (last.name !in GroupNames(init) ==> FirstNamed(groups, last.name) == |init|)
  {
    assert GroupNames(groups) == GroupNames(init) + [last.name];
    forall n | n in GroupNames(init)
      ensures FirstNamed(groups, n) == FirstNamed(init, n)
    {
      IndexOfAppend(GroupNames(init), last.name, n);
    }
    IndexOfAppend(GroupNames(init), last.name, last.name);
  }

  lemma {:induction false} IndexOfAppend<T>(s: seq<T>, x: T, y: T)
    ensures y in s ==> IndexOf(s + [x], y) == IndexOf(s, y)
    ensures y !in s && y == x ==> IndexOf(s + [x], y) == Some(|s|)
  {
    if s != [] {
      assert (s + [x])[1..] == s[1..] + [x];
      IndexOfAppend(s[1..], x, y);
    }
  }

  /** The bucket a team is filed under: its group's name, or `''` when the group is unknown. */
  function BucketName(groups: seq<Group>, team: Team): string {
    match FindGroup(groups, team.groupId)
    case Some(g) => g.name
    case None => ""
  }

  /** The first index of `x` in `s`. */
  function IndexOf<T(==)>(s: seq<T>, x: T): (r: Option<nat>)
    ensures r.Some? ==> r.value < |s| && s[r.value] == x
                        && forall j :: 0 <= j < r.value ==> s[j] != x
    ensures r.None? <==> x !in s
  {
    if s == [] then None
    else if s[0] == x then Some(0)
    else match IndexOf(s[1..], x)
      case Some(i) => Some(i + 1)
      case None => None
  }

  function IdsOf(entries: seq<Standing>): (r: seq<Id>)
    ensures |r| == |entries|
    ensures forall i :: 0 <= i < |entries| ==> r[i] == entries[i].teamId
  {
    seq(|entries|, i requires 0 <= i < |entries| => entries[i].teamId)
  }

  /** The zeroed standing created the first time a team is filed. */
  function Fresh(team: Team, groupName: string): (s: Standing)
    ensures Coherent(s) && s.played == 0
  {
    Standing(team.id, team.name, groupName, 0, 0, 0, 0, 0, 0, 0.0)
  }

  /** Files one team: throws when its bucket is missing, skips a team id the bucket already holds. */
  function Seat(groups: seq<Group>, t: Table, team: Team): (r: Result<Table, Fault>)
    ensures r.Failure? <==> BucketName(groups, team) !in Names(t)
    ensures r.Success? ==> Names(r.value) == Names(t)
  {
    var name := BucketName(groups, team);
    match IndexOf(Names(t), name)
    case None => Failure(MissingBucket(team.id, name))
    case Some(b) =>
      if team.id in IdsOf(t[b].entries) then Success(t)
      else Success(t[b := Bucket(name, t[b].entries + [Fresh(team, name)])])
  }

  /** `teams.forEach(...)` over the empty buckets; the first missing bucket aborts. */
  function Seed(groups: seq<Group>, teams: seq<Team>): (r: Result<Table, Fault>)
    ensures r.Success? ==> Names(r.value) == Names(EmptyBuckets(groups))
  {
    if teams == [] then Success(EmptyBuckets(groups))
    else
      var t :- Seed(groups, teams[..|teams| - 1]);
      Seat(groups, t, teams[|teams| - 1])
  }

  /** A standing as first created: all counters and derived columns zero. */
  predicate Zeroed(s: Standing) {
    && s.played == 0 && s.wins == 0 && s.losses == 0
    && s.pointsFor == 0 && s.pointsAgainst == 0 && s.diff == 0 && s.ppg == 0.0
  }

  /**
   * The distinct ids of the teams filed under bucket `name`, in the order
   * they first appear in `teams`.
   */
  function FiledIds(groups: seq<Group>, teams: seq<Team>, name: string): (r: seq<Id>)
    ensures Distinct(r)
  {
    if teams == [] then []
    else
      var p := FiledIds(groups, teams[..|teams| - 1], name);
      var team := teams[|teams| - 1];
      if BucketName(groups, team) == name && team.id !in p then p + [team.id] else p
  }

  /**
   * The display name of the first team in `teams` with id `id` filed under
   * bucket `name` (`''` when there is none): later teams with the same id
   * never overwrite the standing created for the first.
   */
  function FiledName(groups: seq<Group>, teams: seq<Team>, name: string, id: Id): string {
    if teams == [] then ""
    else if teams[0].id == id && BucketName(groups, teams[0]) == name then teams[0].name
    else FiledName(groups, teams[1..], name, id)
  }

  /** Every standing carries the name of the first team filed under its id and bucket. */
  predicate NamedAsFiled(groups: seq<Group>, teams: seq<Team>, t: Table) {
    forall b, i :: 0 <= b < |t| && 0 <= i < |t[b].entries| ==>
      t[b].entries[i].name == FiledName(groups, teams, t[b].name, t[b].entries[i].teamId)
  }

  /**
   * What initialisation promises: one bucket per distinct group name, and
   * in each bucket one zeroed standing per distinct id of the teams filed
   * under that name, in the order those ids first appear in `teams`, named
   * after the first such team.
   */
  ghost predicate Seeded(groups: seq<Group>, teams: seq<Team>, t: Table) {
    && Names(t) == Names(EmptyBuckets(groups))
    && (forall b :: 0 <= b < |t| ==> IdsOf(t[b].entries) == FiledIds(groups, teams, t[b].name))
    && NamedAsFiled(groups, teams, t)
    && (forall b, i :: 0 <= b < |t| && 0 <= i < |t[b].entries| ==>
          Zeroed(t[b].entries[i]) && t[b].entries[i].group == t[b].name)
  }

  /** Appending a team changes the filed name of an id only when the id was not yet filed. */
  lemma {:induction false} FiledNameAppend(groups: seq<Group>, p: seq<Team>, x: Team, name: string, id: Id)
    ensures FiledName(groups, p + [x], name, id) ==
            if exists team :: team in p && team.id == id && BucketName(groups, team) == name
            then FiledName(groups, p, name, id)
            else if x.id == id && BucketName(groups, x) == name then x.name
            else ""
  {
    if p == [] {
      assert [] + [x] == [x];
      assert [x][1..] == [];
    } else {
      assert (p + [x])[0] == p[0];
      assert (p + [x])[1..] == p[1..] + [x];
      FiledNameAppend(groups, p[1..], x, name, id);
      assert forall team :: team in p <==> team == p[0] || team in p[1..];
    }
  }

  /** A bucket's filed ids are exactly the ids of the teams filed under its name. */
  lemma {:induction false} FiledIdsMembers(groups: seq<Group>, teams: seq<Team>, name: string, id: Id)
    ensures id in FiledIds(groups, teams, name) <==>
            exists team :: team in teams && team.id == id && BucketName(groups, team) == name
  {
    if teams != [] {
      var prefix := teams[..|teams| - 1];
      assert teams == prefix + [teams[|teams| - 1]];
      FiledIdsMembers(groups, prefix, name, id);
      assert forall x :: x in teams <==> x in prefix || x == teams[|teams| - 1];
    }
  }

  /**
   * Initialisation throws exactly when some team's bucket name is not the
   * name of a group, and otherwise files every team as `Seeded` states.
   */
  lemma {:induction false} SeedSpec(groups: seq<Group>, teams: seq<Team>)
    ensures Seed(groups, teams).Failure? <==>
            exists team :: team in teams && BucketName(groups, team) !in GroupNames(groups)
    ensures Seed(groups, teams).Success? ==> Seeded(groups, teams, Seed(groups, teams).value)
  {
    if teams != [] {
      var prefix := teams[..|teams| - 1];
      var team := teams[|teams| - 1];
      assert teams == prefix + [team];
      SeedSpec(groups, prefix);
      if Seed(groups, prefix).Success? {
        SeatSpec(groups, prefix, Seed(groups, prefix).value, team);
      }
    }
  }

  lemma SeatSpec(groups: seq<Group>, prefix: seq<Team>, t: Table, team: Team)
    requires Seeded(groups, prefix, t)
    ensures Seat(groups, t, team).Failure? <==> BucketName(groups, team) !in GroupNames(groups)
    ensures Seat(groups, t, team).Success? ==>
            Seeded(groups, prefix + [team], Seat(groups, t, team).value)
  {
    var name := BucketName(groups, team);
    match IndexOf(Names(t), name)
    case None =>
    case Some(b) =>
      SeatFiled(groups, prefix, t, team, b);
      SeatNamed(groups, prefix, t, team, b);
      if team.id !in IdsOf(t[b].entries) {
        var t' := t[b := Bucket(name, t[b].entries + [Fresh(team, name)])];
        assert Names(t') == Names(t);
      }
  }

  /** Filing one more team appends its id to its own bucket, unless already there. */
  lemma SeatFiled(groups: seq<Group>, prefix: seq<Team>, t: Table, team: Team, b: nat)
    requires Distinct(Names(t))
    requires forall c :: 0 <= c < |t| ==> IdsOf(t[c].entries) == FiledIds(groups, prefix, t[c].name)
    requires IndexOf(Names(t), BucketName(groups, team)) == Some(b)
    ensures var r := Seat(groups, t, team).value;
      forall c :: 0 <= c < |r| ==> IdsOf(r[c].entries) == FiledIds(groups, prefix + [team], r[c].name)
  {
    var name := BucketName(groups, team);
    var teams := prefix + [team];
    assert teams[..|teams| - 1] == prefix;
    var r := Seat(groups, t, team).value;
    if team.id !in IdsOf(t[b].entries) {
      assert IdsOf(t[b].entries + [Fresh(team, name)]) == IdsOf(t[b].entries) + [team.id];
      forall c | 0 <= c < |r|
        ensures IdsOf(r[c].entries) == FiledIds(groups, teams, r[c].name)
      {
        if c != b {
          assert Names(t)[c] != Names(t)[b];
        }
      }
    }
  }

  /** Filing one more team names a new standing after it and renames no existing one. */
  lemma SeatNamed(groups: seq<Group>, prefix: seq<Team>, t: Table, team: Team, b: nat)
    requires forall c :: 0 <= c < |t| ==> IdsOf(t[c].entries) == FiledIds(groups, prefix, t[c].name)
    requires NamedAsFiled(groups, prefix, t)
    requires IndexOf(Names(t), BucketName(groups, team)) == Some(b)
    ensures NamedAsFiled(groups, prefix + [team], Seat(groups, t, team).value)
  {
    var teams := prefix + [team];
    var r := Seat(groups, t, team).value;
    forall c, i | 0 <= c < |r| && 0 <= i < |r[c].entries|
      ensures r[c].entries[i].name == FiledName(groups, teams, r[c].name, r[c].entries[i].teamId)
    {
      var id := r[c].entries[i].teamId;
      FiledNameAppend(groups, prefix, team, r[c].name, id);
      FiledIdsMembers(groups, prefix, r[c].name, id);
      if i < |t[c].entries| {
        assert r[c].entries[i] == t[c].entries[i];
        assert IdsOf(t[c].entries)[i] == id;
      } else {
        assert IdsOf(t[b].entries) == FiledIds(groups, prefix, r[c].name);
      }
    }
  }

  // ---------------------------------------------------------------------
  // Lookup and update by position (standings/page.tsx:59-60)
  // ---------------------------------------------------------------------

  /** The team ids of a table, bucket by bucket: all a lookup depends on. */
  function Ids(t: Table): (r: seq<seq<Id>>)
    ensures |r| == |t|
    ensures forall b :: 0 <= b < |t| ==> r[b] == IdsOf(t[b].entries)
  {
    seq(|t|, b requires 0 <= b < |t| => IdsOf(t[b].entries))
  }

  predicate ValidLoc(t: Table, l: Loc) {
    l.b < |t| && l.i < |t[l.b].entries|
  }

  /**
   * The first position holding `id` when the buckets are flattened in
   * order, as `Object.values(standingsMap).flatMap(...).find(...)` scans.
   */
  function Locate(ids: seq<seq<Id>>, id: Id): (r: Option<Loc>)
    ensures r.Some? ==>
      && r.value.b < |ids| && r.value.i < |ids[r.value.b]|
      && ids[r.value.b][r.value.i] == id
      && (forall b :: 0 <= b < r.value.b ==> id !in ids[b])
      && (forall i :: 0 <= i < r.value.i ==> ids[r.value.b][i] != id)
    ensures r.None? ==> forall b :: 0 <= b < |ids| ==> id !in ids[b]
  {
    if ids == [] then None
    else match IndexOf(ids[0], id)
      case Some(i) => Some(Loc(0, i))
      case None =>
        match Locate(ids[1..], id)
        case Some(l) => Some(Loc(l.b + 1, l.i))
        case None => None
  }

  function At(t: Table, l: Loc): Standing
    requires ValidLoc(t, l)
  {
    t[l.b].entries[l.i]
  }

  /** Overwrites the standing at `l`, which keeps its team id. */
  function Update(t: Table, l: Loc, s: Standing): (r: Table)
    requires ValidLoc(t, l) && s.teamId == At(t, l).teamId
    ensures Ids(r) == Ids(t) && Names(r) == Names(t)
    ensures At(r, l) == s
    ensures forall l' :: ValidLoc(t, l') && l' != l ==> At(r, l') == At(t, l')
  {
    var r := t[l.b := Bucket(t[l.b].name, t[l.b].entries[l.i := s])];
    assert IdsOf(r[l.b].entries) == IdsOf(t[l.b].entries);
    assert Ids(r) == Ids(t);
    assert Names(r) == Names(t);
    r
  }

  // ---------------------------------------------------------------------
  // The match fold (standings/page.tsx:30, 58-83)
  // ---------------------------------------------------------------------

  /**
   * One side of a match: a game played, the points scored and conceded, a
   * win or a loss unless the scores tie, then diff and ppg recomputed.
   */
  function Credit(s: Standing, scored: int, conceded: int): (r: Standing)
    ensures r.teamId == s.teamId && r.name == s.name && r.group == s.group
    ensures r.played == s.played + 1
    ensures r.wins + r.losses == s.wins + s.losses + (if scored != conceded then 1 else 0)
    ensures Coherent(s) ==> Coherent(r)
  {
    var played := s.played + 1;
    var pointsFor := s.pointsFor + scored;
    var pointsAgainst := s.pointsAgainst + conceded;
    s.(played := played,
       wins := if scored > conceded then s.wins + 1 else s.wins,
       losses := if conceded > scored then s.losses + 1 else s.losses,
       pointsFor := pointsFor,
       pointsAgainst := pointsAgainst,
       diff := pointsFor - pointsAgainst,
       ppg := if played > 0 then pointsFor as real / played as real else 0.0)
  }

  /** Whether the page folds `m` into `t`: it is finished and both teams are found. */
  predicate Counts(t: Table, m: Match) {
    && m.status == Finished
    && Locate(Ids(t), m.team1Id).Some?
    && Locate(Ids(t), m.team2Id).Some?
  }

  /**
   * Folds one match into the standings of both teams. When both ids find
   * the same standing (a team recorded against itself) it is credited twice.
   */
  function ApplyMatch(t: Table, m: Match): (r: Table)
    ensures Ids(r) == Ids(t) && Names(r) == Names(t)
    ensures !Counts(t, m) ==> r == t
  {
    if m.status != Finished then t
    else
      match (Locate(Ids(t), m.team1Id), Locate(Ids(t), m.team2Id))
      case (Some(l1), Some(l2)) =>
        var t1 := Update(t, l1, Credit(At(t, l1), m.score1, m.score2));
        Update(t1, l2, Credit(At(t1, l2), m.score2, m.score1))
      case _ => t
  }

  /** `matches.forEach(...)`: every match in turn, in the order given. */
  function Tally(t: Table, matches: seq<Match>): (r: Table)
    ensures Ids(r) == Ids(t) && Names(r) == Names(t)
    decreases |matches|
  {
    if matches == [] then t else Tally(ApplyMatch(t, matches[0]), matches[1..])
  }
}

=== FILE: wrappers.dfy ===
/** Failure-compatible wrappers used throughout the model. */
module Wrappers {

  /** A value that may be absent: JavaScript's `undefined` / SQL's `null`. */
  datatype Option<+T> = None | Some(value: T)

  /** Either a computed value or the reason the computation aborted. */
  datatype Result<+R, +E> = Success(value: R) | Failure(error: E) {

    predicate IsFailure() {
      Failure?
    }

    function PropagateFailure<U>(): Result<U, E>
      requires Failure?
    {
      Failure(error)
    }

    function Extract(): R
      requires Success?
    {
      value
    }
  }
}
